=== FILE: README.md ===
# LLMTwins tenant wrapper, modelled in Dafny

The LLMTwins tenant wrapper is a small HTTP proxy. It puts a single-tenant
LLMTwins service behind a multi-tenant front. For every request it:

- picks the tenant from the `X-Tenant-ID` header. A missing or blank header
  selects the configured default, and a configured whitelist refuses
  unknown tenants with 403;
- routes the request to one of its handlers;
- puts every session identifier the caller sends into the tenant's
  namespace (`tenant + separator + id`). This applies to the path template,
  the `session_id` query parameter and the `session_id` / `sessionId` /
  `sid` fields of a JSON object body;
- forwards the request upstream with the tenant header and a marker header;
- takes the namespace off again in the reply, both in a buffered JSON
  reply and line by line in a streamed NDJSON reply.

The model is a set of pure functions over immutable data:

| file | module | contents |
|---|---|---|
| wrappers.dfy | Wrappers | Option and Result |
| text.dfy | Text | Python whitespace, `str.strip`, `str.lower`, single-character `split`/`join` |
| json.dfy | Json | JSON values, Python truthiness, and the codec functions taken as parameters |
| pairs.dfy | Pairs | `dict(...)` over ordered pairs (the last value wins), and first-match header lookup |
| tenancy.dfy | Tenancy | configuration, errors with their status codes, `get_tenant` |
| identifiers.dfy | Identifiers | `rewrite_session_id` and `extract_original_session_id` |
| payload.dfy | Payload | rewriting of query, request body and response data |
| headers.dfy | Headers | outbound header construction |
| stream.dfy | Stream | `rewrite_response_session` and the per-chunk stream transform |
| proxy.dfy | Proxy | `proxy_request` and the upload handler without the HTTP client |
| templates.dfy | Templates | path templates: matching a path against one, and the path one renders to |
| routes.dfy | Routes | the route table in registration order, and dispatch by method and path |
| handlers.dfy | Handlers | the handlers: the upstream path each builds, tenant resolution, forwarding |
| examples.dfy | Scenarios | the documented end-to-end scenarios on concrete inputs |

Parsing and serialising JSON, UTF-8 decoding and encoding, and the text of
an HTTP response are not re-implemented. They are fields of a `Codecs`
record of functions. Every property is proved for all codecs, except where
a lemma states what it needs of them, such as a serialiser that emits no
raw newline (`Json.Compact`).

Some of the code's behaviour is easy to misread:

- A buffered upstream reply that is not JSON reaches the caller as a JSON
  string holding its text (`JSONResponse(content=response.text)`). It does
  not reach the caller as the raw bytes.
- A streamed reply always answers 200 with `application/x-ndjson`. The
  upstream status is not passed on.
- The inbound tenant header is always `X-Tenant-ID`, the FastAPI alias. The
  configured tenant header name is used only for the outbound header.
- A body field or a streamed record whose identifier is truthy but not a
  string makes `startswith` raise. The model carries this as
  `IdentifierNotString`:
  - on the request side and on a buffered reply, the request ends in a 500;
  - inside a streamed chunk, the catch-all `except` forwards the chunk
    unchanged.
- A request on a session path with another of the five methods the
  catch-all accepts (main.py:361), such as POST on the GET-only state path,
  does not get a 405. It falls through to the catch-all, which forwards the path as written, with
  no namespace (`Handlers.SessionStateByPostIsForwardedVerbatim`).
- FastAPI's constructor (main.py:28-32) registers four pages of its own
  before the wrapper's routes: `/openapi.json`, `/docs`,
  `/docs/oauth2-redirect` and `/redoc`. They answer GET and HEAD locally,
  ahead of the catch-all. Together with `/` and `/health` they are the only
  handlers that do not forward.
- The decorators `@app.get` and `@app.api_route` accept exactly the methods
  they declare. HEAD is not added to GET, so a HEAD request gets 405
  everywhere except on FastAPI's four pages.

## Model

| member | source | states |
|---|---|---|
| Text.Strip | packages/multi-tenant/llmtwins_wrapper/main.py:46 | `str.strip()`: the result is empty exactly for whitespace-only input. Otherwise it has no whitespace at either end and is a slice of the input with only whitespace around it. |
| Text.StripUntrimmed | packages/multi-tenant/llmtwins_wrapper/main.py:46 | stripping text with no whitespace at either end gives it back unchanged |
| Text.Split | packages/multi-tenant/llmtwins_wrapper/main.py:177 | `text.split("\n")` yields one more part than there are separators, and no part contains the separator |
| Text.JoinSplit | packages/multi-tenant/llmtwins_wrapper/main.py:177-189 | joining the parts of a split with the same separator restores the text |
| Text.SplitJoin | packages/multi-tenant/llmtwins_wrapper/main.py:177-189 | splitting a join of separator-free parts restores the parts |
| Pairs.DictFromPairsKeepsLast | packages/multi-tenant/llmtwins_wrapper/main.py:94 | `dict(pairs)` holds every key of the pairs. Each key maps to the value of its last occurrence. |
| Pairs.FirstValue | packages/multi-tenant/llmtwins_wrapper/main.py:235 | a header lookup returns the value of the first matching pair, and returns None when no pair matches |
| Tenancy.ResolveTenant | packages/multi-tenant/llmtwins_wrapper/main.py:44-58 | resolution succeeds exactly when there is no whitelist or the trimmed-or-default tenant is on it. On success it returns that tenant. On failure it returns InvalidTenant with status 403. |
| Tenancy.ResolvedHeaderIsTrimmed | packages/multi-tenant/llmtwins_wrapper/main.py:46-49 | a header with visible content resolves to that content without the whitespace around it |
| Tenancy.MissingHeaderSelectsDefault | packages/multi-tenant/llmtwins_wrapper/main.py:46-56 | a missing or blank header selects the default tenant, subject to the whitelist |
| Tenancy.ResolveIsIdempotent | packages/multi-tenant/llmtwins_wrapper/main.py:44-58 | resolving the resolved tenant again yields the same tenant |
| Tenancy.StripOfStripped | packages/multi-tenant/llmtwins_wrapper/main.py:46 | stripping is idempotent |
| Identifiers.Namespace | packages/multi-tenant/llmtwins_wrapper/main.py:61-70 | `rewrite_session_id` returns empty exactly for empty input. A non-empty result carries the tenant's prefix. It is the identifier itself or the prefix followed by it, and an already-prefixed identifier is kept. |
| Identifiers.Denamespace | packages/multi-tenant/llmtwins_wrapper/main.py:73-78 | `extract_original_session_id`: the prefix followed by the result gives back a prefixed input, and any other input is returned unchanged |
| Identifiers.NamespaceIsIdempotent | packages/multi-tenant/llmtwins_wrapper/main.py:66-68 | namespacing twice equals namespacing once |
| Identifiers.DenamespaceUndoesNamespace | packages/multi-tenant/llmtwins_wrapper/main.py:61-78 | de-namespacing undoes namespacing for identifiers that are not already prefixed |
| Identifiers.RoundTripExactly | packages/multi-tenant/llmtwins_wrapper/main.py:61-78 | the round trip holds if and only if the identifier is not prefixed or the prefix is empty |
| Identifiers.NamespaceUndoesDenamespace | packages/multi-tenant/llmtwins_wrapper/main.py:61-78 | namespacing undoes de-namespacing for prefixed identifiers whose bare part is non-empty and itself unprefixed |
| Identifiers.NamespaceDeterminesTenant | packages/multi-tenant/llmtwins_wrapper/main.py:67-70 | if no tenant name contains the separator's first character, an identifier carries at most one tenant's prefix |
| Identifiers.TenantsAreIsolated | packages/multi-tenant/llmtwins_wrapper/main.py:61-78 | under the same condition, two tenants never produce the same upstream identifier, and de-namespacing never strips another tenant's prefix |
| Identifiers.SeparatorInTenantNameCollides | packages/multi-tenant/llmtwins_wrapper/main.py:67-70 | without the condition, tenants "a" and "a:" collide on "a:::s" |
| Payload.RewriteFields | packages/multi-tenant/llmtwins_wrapper/main.py:107-109 | the field loop succeeds exactly when no listed field holds a truthy non-string. It keeps the keys, leaves unlisted fields untouched and rewrites each listed field. |
| Payload.RewriteRequestBody | packages/multi-tenant/llmtwins_wrapper/main.py:101-111 | a non-object is unchanged. An object succeeds exactly when its identifier fields are well typed, otherwise the result is a 500. Keys are kept and other fields untouched. Truthy identifiers gain the prefix and falsy ones stay. |
| Payload.RewriteResponseData | packages/multi-tenant/llmtwins_wrapper/main.py:194-203 | the same shape on the reply side: truthy identifiers lose this tenant's prefix if they carry it, and are otherwise kept |
| Payload.RewriteQuery | packages/multi-tenant/llmtwins_wrapper/main.py:94-98 | the keys are kept, only `session_id` is namespaced, and every other parameter is copied |
| Payload.RewriteQueryIsIdempotent | packages/multi-tenant/llmtwins_wrapper/main.py:94-98 | rewriting a query twice equals rewriting it once |
| Payload.RewriteRequestBodyIsIdempotent | packages/multi-tenant/llmtwins_wrapper/main.py:101-111 | rewriting a body twice equals rewriting it once |
| Payload.ResponseUndoesRequest | packages/multi-tenant/llmtwins_wrapper/main.py:101-111 | the response rewrite restores a body whose identifiers were bare before the request rewrite |
| Payload.RewrittenRoundTrip | packages/multi-tenant/llmtwins_wrapper/main.py:199-201 | one field taken through both directions comes back unchanged |
| Headers.CopyHeadersFiltersDict | packages/multi-tenant/llmtwins_wrapper/main.py:114-118 | the header copy loop equals `dict` of the inbound pairs with `host` and `content-length` removed, matched case-insensitively |
| Headers.OutboundHeaders | packages/multi-tenant/llmtwins_wrapper/main.py:114-122 | the tenant header carries the tenant, the marker says "true", and no dropped header survives. Every other key is the last value of an inbound pair, and every kept inbound key is present. |
| Stream.RewriteLine | packages/multi-tenant/llmtwins_wrapper/main.py:180-188 | a blank or non-JSON line stays verbatim. A JSON line succeeds exactly when its record does, and becomes the serialisation of the rewritten record. |
| Stream.RewriteLines | packages/multi-tenant/llmtwins_wrapper/main.py:179-188 | the loop succeeds exactly when every line does. It keeps the number of lines, and each output line is the rewriting of the input line at the same position. |
| Stream.RewriteResponseSession | packages/multi-tenant/llmtwins_wrapper/main.py:172-191 | an undecodable chunk is returned unchanged, and so is one with a failing line or an unencodable result. Otherwise the output is the encoding of the rewritten lines joined by newlines. |
| Stream.RewritePreservesLines | packages/multi-tenant/llmtwins_wrapper/main.py:177-189 | with a compact serialiser, the rewritten text has the same lines and the same number of newlines |
| Stream.UntouchedChunkIsForwardedVerbatim | packages/multi-tenant/llmtwins_wrapper/main.py:172-191 | a chunk with no JSON line comes back byte for byte |
| Stream.NothingToRewrite | packages/multi-tenant/llmtwins_wrapper/main.py:179-188 | blank and non-JSON lines pass the loop unchanged |
| Stream.SingleRecordChunk | packages/multi-tenant/llmtwins_wrapper/main.py:172-191 | a one-record NDJSON chunk comes back as the rewritten record followed by its newline |
| Stream.RewriteStream | packages/multi-tenant/llmtwins_wrapper/main.py:144-147 | there is one output chunk per input chunk. With rewriting on each is the rewriting of the chunk at the same position, and with it off nothing changes. |
| Proxy.SentAsWritten | packages/multi-tenant/llmtwins_wrapper/main.py:157-158 | as written, a parsed JSON value that is not an object is sent as no body at all |
| Proxy.ArrayBodyDroppedAsWritten | packages/multi-tenant/llmtwins_wrapper/main.py:102-111 | a POST with the body `[1]` is sent upstream with no body |
| Proxy.Outgoing | packages/multi-tenant/llmtwins_wrapper/main.py:157-158 | corrected: the request has no body exactly when the inbound request had none. An object is sent as JSON, and anything else as the bytes received. |
| Proxy.OutgoingAgreesWhereSourceSends | packages/multi-tenant/llmtwins_wrapper/main.py:157-158 | wherever the code as written sends a body, the corrected version sends the same one |
| Proxy.ReadBody | packages/multi-tenant/llmtwins_wrapper/main.py:100-111 | only POST, PUT and PATCH read a body. One that does not parse is kept as bytes. With rewriting on, an object succeeds exactly when its identifier fields are well typed and becomes the rewritten object. Any other JSON value is kept. |
| Proxy.ReadBodyKeepsStreamFlag | packages/multi-tenant/llmtwins_wrapper/main.py:126-129 | the body read asks for streaming exactly when the request's own JSON object has a truthy `stream` |
| Proxy.ProxyRequest | packages/multi-tenant/llmtwins_wrapper/main.py:81-131 | corrected: it fails (500) exactly on a mistyped identifier in an object body. Otherwise the URL is base plus path, the query and headers are the rewritten ones, and the reply is streamed exactly when the JSON object body has a truthy `stream`. A body is sent exactly for POST, PUT and PATCH: rewritten if it is an object, raw if it is not JSON. |
| Proxy.UploadRequest | packages/multi-tenant/llmtwins_wrapper/main.py:254-284 | the upload sends a POST with the raw body. The query is copied without rewriting. The tenant header is set and there is no marker. |
| Proxy.UploadIsProxyWithoutRewriting | packages/multi-tenant/llmtwins_wrapper/main.py:254-284 | for the same POST, the upload and the generic proxy (main.py:81-131) agree on method and URL. They differ in that the proxy namespaces the query and adds the marker header. For a body that is not JSON, nothing else differs. |
| Proxy.BufferedReply | packages/multi-tenant/llmtwins_wrapper/main.py:162-169 | the status is passed through. A reply that is not JSON becomes a JSON string. Non-objects are unchanged. Objects are de-namespaced, or the reply is a 500 on a mistyped identifier. |
| Proxy.BufferedReplyUndoesRequest | packages/multi-tenant/llmtwins_wrapper/main.py:101-169 | an upstream that echoes the rewritten request body gives the caller back the body it sent, when its identifiers were bare, with the upstream status |
| Proxy.StreamReply | packages/multi-tenant/llmtwins_wrapper/main.py:131-149 | the reply is status 200 with NDJSON, one chunk per upstream chunk, each rewritten on its own |
| Templates.MatchSegments | packages/multi-tenant/llmtwins_wrapper/main.py:241 | a template matches a path exactly when they have as many segments and each segment fits: a literal must be equal, `{session_id}` takes any non-empty segment. The value captured is the segment at the first parameter, and "" for a template without one. |
| Templates.SessionTemplate | packages/multi-tenant/llmtwins_wrapper/main.py:241-254 | `/api/sessions/{session_id}/<x>` matches a four-segment session path exactly when the last segments agree, and captures the identifier (for a last segment without a line feed) |
| Templates.MatchRenders | packages/multi-tenant/llmtwins_wrapper/main.py:241-251 | a path that a template matches is that template rendered with the identifier it captured |
| Routes.Dispatch | packages/multi-tenant/llmtwins_wrapper/main.py:208-361 | a path without a leading `/` reaches nothing (404). A 405 happens only for a method outside the five the catch-all accepts. A routed handler's route accepts the method. |
| Routes.FirstMatchIsFirst | packages/multi-tenant/llmtwins_wrapper/main.py:208-361 | a route is found exactly when some route matches both path and method, and it is the first such route. The result is 404 exactly when no route matches the path and no earlier route did. |
| Routes.SkipRoutes | packages/multi-tenant/llmtwins_wrapper/main.py:208-361 | routes that do not match the path can be skipped without changing the outcome |
| Routes.RefusedEverywhere | packages/multi-tenant/llmtwins_wrapper/main.py:208-361 | a method that no route accepts gets 405 from any table ending with the catch-all |
| Routes.CatchAllIsTotal | packages/multi-tenant/llmtwins_wrapper/main.py:361 | every path without a line feed is routed under GET, POST, PUT, DELETE and PATCH |
| Routes.OtherMethodsAreRefused | packages/multi-tenant/llmtwins_wrapper/main.py:361 | at the router, every method other than those five and HEAD, named by any other name, gets 405 on every path without a line feed |
| Routes.HeadIsRefused | packages/multi-tenant/llmtwins_wrapper/main.py:361 | HEAD gets 405 on every path without a line feed other than FastAPI's four pages |
| Routes.Table | packages/multi-tenant/llmtwins_wrapper/main.py:28-361 | the sixteen routes in registration order: FastAPI's four pages from the constructor (main.py:28-32), then each decorator of main.py:208-361 with its template and its methods, the catch-all last |
| Routes.TableMethods | packages/multi-tenant/llmtwins_wrapper/main.py:208-361 | the catch-all is the last route. Every route accepts only the five standard methods and HEAD, and only FastAPI's four pages accept HEAD. |
| Routes.DocsTemplates | packages/multi-tenant/llmtwins_wrapper/main.py:28-32 | FastAPI's four pages are literal templates rendering to `/openapi.json`, `/docs`, `/docs/oauth2-redirect` and `/redoc` |
| Routes.SessionPathSegments | packages/multi-tenant/llmtwins_wrapper/main.py:241 | `/api/sessions/{id}/...` splits into its segments when the id holds no slash |
| Routes.SessionStateIsRouted | packages/multi-tenant/llmtwins_wrapper/main.py:241-251 | GET `/api/sessions/{id}/state` reaches the state handler with `id` |
| Routes.StateByPostReachesCatchAll | packages/multi-tenant/llmtwins_wrapper/main.py:241-251 | POST on `/api/sessions/{id}/state` matches the GET-only state route by path only, so it reaches the catch-all (for an identifier without a line feed) |
| Handlers.CatchAllForwardsPath | packages/multi-tenant/llmtwins_wrapper/main.py:361-368 | the catch-all forwards `/` plus its captured path, which is the received path (for a path without a line feed) |
| Handlers.SessionStateByPostIsForwardedVerbatim | packages/multi-tenant/llmtwins_wrapper/main.py:361-368 | POST on the same path reaches the catch-all, which forwards the identifier with no namespace (for an identifier without a line feed) |
| Handlers.SessionPath | packages/multi-tenant/llmtwins_wrapper/main.py:248-250 | the path is `/api/sessions/`, the caller's identifier in the tenant's namespace, `/` and the tail. That identifier segment carries the tenant's prefix, and de-namespacing it gives back the caller's identifier unless that was already prefixed. |
| Handlers.UpstreamPath | packages/multi-tenant/llmtwins_wrapper/main.py:208-368 | there is no upstream path exactly for the handlers that answer locally: FastAPI's four pages, `/` and `/health`. Session handlers target `/api/sessions/...`. The catch-all forwards `/` plus its path. |
| Handlers.UpstreamPathFollowsTemplate | packages/multi-tenant/llmtwins_wrapper/main.py:232-356 | every forwarding handler except the catch-all forwards to its own route template, with the identifier it captured put into the tenant's namespace |
| Headers.TenantSelector | packages/multi-tenant/llmtwins_wrapper/main.py:235 | the inbound tenant is the value of the first header named `X-Tenant-ID` in any letter case, and there is none exactly when no header has that name |
| Handlers.Handle | packages/multi-tenant/llmtwins_wrapper/main.py:208-368 | corrected: the result is 404 or 405 when routing fails. FastAPI's pages are served locally, `GET /` answers the fixed status object and `/health` probes the upstream. A routed forwarding handler whose tenant resolves forwards what that handler builds. A forward comes only that way, for a tenant that `get_tenant` accepts and the whitelist admits. A refused tenant gets 403 before any upstream request. Forwarding goes through the corrected `Proxy.ProxyRequest`. |
| Handlers.StateReadIsForwardedNamespaced | packages/multi-tenant/llmtwins_wrapper/main.py:241-251 | a GET of `/api/sessions/{id}/state` from a resolved tenant is forwarded without a body, as a GET of the base URL plus `/api/sessions/`, the namespaced identifier and `/state` |
| Handlers.BodilessForward | packages/multi-tenant/llmtwins_wrapper/main.py:100-102 | a request whose method is not POST, PUT or PATCH (and whose method value is well formed), reaching any forwarding handler but the upload, keeps its method and goes to the base URL plus that handler's upstream path with no body |
| Handlers.Forwarded | packages/multi-tenant/llmtwins_wrapper/main.py:236-292 | corrected: it forwards through the corrected `Proxy.ProxyRequest`. The request goes to base plus the handler's upstream path, carries the tenant header, and fails only with a 500. An upload always sends its raw body. |
| Scenarios.WhitelistScenario | packages/multi-tenant/llmtwins_wrapper/main.py:44-58 | with the whitelist {acme, globex}, "evil" gets 403 and "acme" is accepted |
| Scenarios.DefaultTenantScenario | packages/multi-tenant/llmtwins_wrapper/main.py:94-122 | with no header the tenant is "default", the body `{"foo":1}` is unchanged, and the tenant header says "default" |
| Scenarios.NamespacedRequestScenario | packages/multi-tenant/llmtwins_wrapper/main.py:241-251 | tenant acme's session s1 is read at `/api/sessions/acme::s1/state` |
| Scenarios.NamespacedReplyScenario | packages/multi-tenant/llmtwins_wrapper/main.py:194-203 | the reply `{"session_id":"acme::s1","status":"ready"}` reaches the caller as `{"session_id":"s1","status":"ready"}` |

## Left out

- Routes.OtherMethodsAreRefused: holds at the router only. The CORS
  middleware (main.py:35-41) runs before routing and answers a preflight
  request itself with 200. A preflight is an OPTIONS request carrying
  `Origin` and `Access-Control-Request-Method`. The middleware also adds its
  headers to every other reply. The model has no middleware layer, because
  these replies carry no tenant data.
- The HTTP client, timeouts, logging and the server process
  (main.py:15-27, 124, 370-373). These are I/O. The upstream exchange
  appears as its inputs (`UpstreamResponse`, the list of chunks) and
  outputs (`UpstreamRequest`).
- The `/health` handler's upstream probe (main.py:213-227). It is network
  I/O; the model stops at `ProbeUpstream`.
- The configuration loader, which is not part of this model. Its values are
  the fields of `Tenancy.Config`.
- JSON text syntax, UTF-8 and `json.dumps` formatting. These are parameters
  (`Json.Codecs`).
- The order of an object's keys. `Json.Obj` holds a map, so two objects
  that differ only in key order are the same value, and the model says
  nothing about the order in which keys are written back.
- NaN, Infinity and -Infinity, which Python's parser accepts and its
  writer emits. `Json.Num` holds a real, so these values cannot occur.
- URL encoding of the path and query, and the splitting of `%2F` inside a
  path segment. Paths and queries are taken as already decoded.
- Proxy.ReadBody, Proxy.ProxyRequest: the body of a POST, PUT or PATCH that is not valid UTF-8. Reading it as
  JSON raises an error other than JSONDecodeError and ends in a 500. The
  model treats every body that does not parse as raw bytes.
- Text.Lower: lower-cases ASCII letters only, where Python's `str.lower`
  covers all of Unicode. Header names are ASCII tokens in HTTP, so the
  header filter and the tenant header lookup are not affected.
- Recursion-depth and memory errors of the JSON parser.
- Proxy.BufferedReply: an upstream reply body that is not valid UTF-8
  makes `response.json()` raise a decode error that is not a
  JSONDecodeError, so the source answers 500 (main.py:163-169 and
  287-292). The model's `loadsBytes` gives None there, and the reply
  becomes a JSON string of the text.
- The content of FastAPI's four pages. Routing to them is modelled, and
  the model stops at `ServeDocs`.
- Stream lines that raise anything other than a decode error, other than
  the non-string identifier case. Those discard the rewriting of the whole
  chunk, and `Stream.RewriteLines` models only the non-string identifier.
- Routes.Dispatch: paths that contain a line feed, which a client sends
  as `%0A`. Starlette matches a route by a regular expression ending in
  `$`, which also matches just before a final line feed. The catch-all's
  `.*` stops at a line feed, while a `{session_id}` parameter accepts one.
  So the source runs `/health` for `/health` plus a line feed, and forwards
  `/a` for `/a` plus a line feed. A path with a line feed in the middle,
  such as `/a`, line feed, `b`, gets 404 under every method. POST on
  `/api/sessions/{id}/state` with a line feed inside the identifier gets
  405. The model matches paths exactly, and its catch-all takes every
  path, so on these paths it routes to the catch-all and forwards the path
  unchanged. Routes.CatchAllIsTotal, Routes.OtherMethodsAreRefused,
  Routes.HeadIsRefused, Routes.StateByPostReachesCatchAll,
  Handlers.CatchAllForwardsPath and
  Handlers.SessionStateByPostIsForwardedVerbatim therefore require a path
  or identifier without a line feed.
- Templates.MatchSegments: matches a path exactly, with no allowance for a
  final line feed. Templates.SessionTemplate therefore requires a last
  segment without a line feed.
- Starlette's trailing-slash redirect. It applies only when no route
  matches, and for paths without a line feed the catch-all always matches.
  A path such as `/health`, line feed, `/` reaches it, and is redirected to
  `/health` plus a line feed. Those paths are outside the model, as the
  Routes.Dispatch line says.
- Handlers.Handle: states 404, 405, 403 and the forwarding facts. The upstream
  reply handling is stated separately in `Proxy.BufferedReply` and
  `Proxy.StreamReply`, not composed into `Handle`.

## Findings

| source | as written | input that shows it | evidently intended | confidence | as-written member | corrected member |
|---|---|---|---|---|---|---|
| packages/multi-tenant/llmtwins_wrapper/main.py:157-158 | a POST, PUT or PATCH whose body parses as JSON that is not an object is sent upstream with neither `json=` nor `content=`, so no body at all | `POST /api/chat` with the body `[1]` | forward the body (as received, since only objects are rewritten) | medium, not executed | Proxy.SentAsWritten, Proxy.ArrayBodyDroppedAsWritten | Proxy.Outgoing, Proxy.ProxyRequest, Handlers.Forwarded, Handlers.Handle |

=== FILE: examples.dfy ===
/** The wrapper's documented scenarios, stated for concrete inputs. */
module Scenarios {
  import opened Wrappers
  import opened Text
  import opened Json
  import opened Tenancy
  import opened Identifiers
  import opened Payload
  import opened Headers
  import opened Routes
  import opened Handlers

  function Whitelisted(): Config {
    Config("http://upstream:8000", "default", {"acme", "globex"}, "::", "X-Tenant-ID")
  }

  function Open(): Config {
    Config("http://upstream:8000", "default", {}, "::", "X-Tenant-ID")
  }

  /** With the whitelist {acme, globex}, "evil" is refused with 403 and
      "acme" is accepted as is. */
  lemma WhitelistScenario()
    ensures ResolveTenant(Whitelisted(), Some("evil")) == Failure(InvalidTenant("evil"))
    ensures Status(ResolveTenant(Whitelisted(), Some("evil")).error) == 403
    ensures ResolveTenant(Whitelisted(), Some("acme")) == Success("acme")
  {
    StripUntrimmed("evil");
    StripUntrimmed("acme");
    assert Strip("evil") == "evil" && Strip("acme") == "acme";
  }

  /** A POST to /api/sessions without a tenant header and body {"foo":1}:
      the default tenant is used, the body has no identifier field and goes
      out unchanged, and the outbound tenant header says "default". */
  lemma DefaultTenantScenario()
    ensures ResolveTenant(Open(), None) == Success("default")
    ensures var body := Obj(map["foo" := Num(1.0)]);
            RewriteRequestBody(Open(), "default", body) == Success(body)
    ensures OutboundHeaders(Open(), "default", [], true)["X-Tenant-ID"] == "default"
  {
    var body := Obj(map["foo" := Num(1.0)]);
    var r := RewriteRequestBody(Open(), "default", body);
    assert WellTypedIds(body.fields);
    assert r.value.fields.Keys == {"foo"};
  }

  /** Tenant acme reads the state of session s1 (the route is
      `SessionStateIsRouted`): the request goes to
      /api/sessions/acme::s1/state. */
  lemma NamespacedRequestScenario()
    ensures UpstreamPath(Open(), "acme", SessionState, "s1") == Some("/api/sessions/acme::s1/state")
  {
    assert !StartsWith("s1", Prefix(Open(), "acme"));
    assert Namespace(Open(), "acme", "s1") == "acme::s1";
    assert "/api/sessions/" + "acme::s1" + "/" + "state" == "/api/sessions/acme::s1/state";
  }

  /** The upstream reply naming acme::s1 reaches tenant acme as s1. */
  lemma NamespacedReplyScenario()
    ensures RewriteResponseData(Open(), "acme", Obj(map["session_id" := Str("acme::s1"), "status" := Str("ready")]))
            == Success(Obj(map["session_id" := Str("s1"), "status" := Str("ready")]))
  {
    var reply := Obj(map["session_id" := Str("acme::s1"), "status" := Str("ready")]);
    var r := RewriteResponseData(Open(), "acme", reply);
    assert WellTypedIds(reply.fields);
    assert StartsWith("acme::s1", Prefix(Open(), "acme"));
    assert r.value.fields.Keys == {"session_id", "status"};
    assert r.value.fields["session_id"] == Str("s1");
    assert r.value.fields == map["session_id" := Str("s1"), "status" := Str("ready")];
  }
}

=== FILE: handlers.dfy ===
/** The handlers behind the routes: the upstream path each one builds, and
    what a request makes the wrapper do. */
module Handlers {
  import opened Wrappers
  import opened Text
  import opened Json
  import opened Tenancy
  import opened Identifiers
  import opened Headers
  import opened Proxy
  import opened Templates
  import opened Routes

  /** The catch-all forwards a path exactly as received. */
  lemma CatchAllForwardsPath(cfg: Config, tenant: string, path: string)
    requires |path| > 0 && path[0] == '/' && '\n' !in path
    ensures UpstreamPath(cfg, tenant, CatchAll, path[1..]) == Some(path)
  {
    assert "/" + path[1..] == path;
  }

  /** A POST on a session's state path reaches the catch-all, so the
      identifier goes upstream exactly as the caller wrote it, outside this
      tenant's namespace. */
  lemma SessionStateByPostIsForwardedVerbatim(cfg: Config, tenant: string, id: string, path: string)
    requires id != "" && '/' !in id && '\n' !in id
    requires path == "/api/sessions/" + id + "/state"
    ensures |path| > 0 && Dispatch(POST, path) == Routed(CatchAll, path[1..])
    ensures UpstreamPath(cfg, tenant, CatchAll, path[1..]) == Some(path)
  {
    StateByPostReachesCatchAll(id, path);
    CatchAllForwardsPath(cfg, tenant, path);
  }

  /** The endpoints whose template embeds a session identifier. */
  predicate EmbedsId(e: Endpoint) {
    e == SessionState || e == SessionUpload || e == OneClick
  }

  /** An upstream path `/api/sessions/{sid}/<tail>` where `sid` is the
      caller's identifier in the tenant's namespace: a non-empty identifier
      lands in the namespace, and taking the namespace off again gives back
      what the caller sent unless the caller had already written it. */
  function SessionPath(cfg: Config, tenant: string, id: string, tail: string): (p: string)
    ensures p == "/api/sessions/" + Namespace(cfg, tenant, id) + "/" + tail
    ensures exists sid :: && p == "/api/sessions/" + sid + "/" + tail
                          && (id != "" ==> StartsWith(sid, Prefix(cfg, tenant)))
                          && (StartsWith(id, Prefix(cfg, tenant)) || Denamespace(cfg, tenant, sid) == id)
  {
    var sid := Namespace(cfg, tenant, id);
    assert StartsWith(id, Prefix(cfg, tenant)) || Denamespace(cfg, tenant, sid) == id by {
      if !StartsWith(id, Prefix(cfg, tenant)) { DenamespaceUndoesNamespace(cfg, tenant, id); }
    }
    "/api/sessions/" + sid + "/" + tail
  }

  /** The upstream path each handler forwards to. Templates with an embedded
      identifier put it in the tenant's namespace; the catch-all forwards the
      path as received; FastAPI's pages and the two health handlers answer
      locally. */
  function UpstreamPath(cfg: Config, tenant: string, e: Endpoint, param: string): (p: Option<string>)
    ensures p.None? <==> AnswersLocally(e)
    ensures EmbedsId(e) ==> StartsWith(p.value, "/api/sessions/")
    ensures e == CatchAll ==> p == Some("/" + param)
  {
    match e
    case OpenApi => None
    case Docs => None
    case DocsOAuthRedirect => None
    case ReDoc => None
    case Root => None
    case Health => None
    case CreateSession => Some("/api/sessions")
    case SessionState => Some(SessionPath(cfg, tenant, param, "state"))
    case SessionUpload => Some(SessionPath(cfg, tenant, param, "upload"))
    case Chat => Some("/api/chat")
    case Mapping => Some("/api/mapping")
    case MappingUpdate => Some("/api/mapping/update")
    case MappingRevise => Some("/api/mapping/revise")
    case OneClick => Some(SessionPath(cfg, tenant, param, "pipeline/one_click"))
    case Planning => Some("/api/planning")
    case CatchAll => Some("/" + param)
  }

  /** Every forwarding handler with a template of its own forwards to that
      same template upstream, with the identifier it captured put into the
      tenant's namespace. */
  lemma UpstreamPathFollowsTemplate(cfg: Config, tenant: string, i: nat, param: string)
    requires i < |Table| && !AnswersLocally(Table[i].endpoint) && Table[i].endpoint != CatchAll
    ensures Table[i].pattern.Segments?
    ensures UpstreamPath(cfg, tenant, Table[i].endpoint, param)
            == Some(Render(Table[i].pattern.segments, Namespace(cfg, tenant, param)))
  {
    if i == 7 || i == 8 || i == 13 {
      SessionTemplateFollows(cfg, tenant, i, param);
    } else {
      FixedTemplateFollows(cfg, tenant, i, param);
    }
  }

  lemma SessionTemplateFollows(cfg: Config, tenant: string, i: nat, param: string)
    requires i == 7 || i == 8 || i == 13
    ensures Table[i].pattern.Segments?
    ensures UpstreamPath(cfg, tenant, Table[i].endpoint, param)
            == Some(Render(Table[i].pattern.segments, Namespace(cfg, tenant, param)))
  {
    if i == 7 {
      SessionFollows(cfg, tenant, param, 7, SessionState, "state");
    } else if i == 8 {
      SessionFollows(cfg, tenant, param, 8, SessionUpload, "upload");
    } else {
      RenderSessionPair("pipeline", "one_click", Namespace(cfg, tenant, param));
      OneClickTail();
    }
  }

  lemma FixedTemplateFollows(cfg: Config, tenant: string, i: nat, param: string)
    requires i in {6, 9, 10, 11, 12, 14}
    ensures Table[i].pattern.Segments?
    ensures UpstreamPath(cfg, tenant, Table[i].endpoint, param)
            == Some(Render(Table[i].pattern.segments, Namespace(cfg, tenant, param)))
  {
    if i == 11 || i == 12 {
      MappingTemplatesFollow(cfg, tenant, i, param);
    } else {
      PairTemplatesFollow(cfg, tenant, i, param);
    }
  }

  lemma PairTemplatesFollow(cfg: Config, tenant: string, i: nat, param: string)
    requires i == 6 || i == 9 || i == 10 || i == 14
    ensures Table[i].pattern.Segments?
    ensures UpstreamPath(cfg, tenant, Table[i].endpoint, param)
            == Some(Render(Table[i].pattern.segments, Namespace(cfg, tenant, param)))
  {
    ApiPaths();
    if i == 6 {
      ApiPairFollows(cfg, tenant, param, 6, CreateSession, "sessions", "/api/sessions");
    } else if i == 9 {
      ApiPairFollows(cfg, tenant, param, 9, Chat, "chat", "/api/chat");
    } else if i == 10 {
      ApiPairFollows(cfg, tenant, param, 10, Mapping, "mapping", "/api/mapping");
    } else {
      ApiPairFollows(cfg, tenant, param, 14, Planning, "planning", "/api/planning");
    }
  }

  lemma MappingTemplatesFollow(cfg: Config, tenant: string, i: nat, param: string)
    requires i == 11 || i == 12
    ensures Table[i].pattern.Segments?
    ensures UpstreamPath(cfg, tenant, Table[i].endpoint, param)
            == Some(Render(Table[i].pattern.segments, Namespace(cfg, tenant, param)))
  {
    MappingPaths();
    if i == 11 {
      MappingFollows(cfg, tenant, param, 11, MappingUpdate, "update", "/api/mapping/update");
    } else {
      MappingFollows(cfg, tenant, param, 12, MappingRevise, "revise", "/api/mapping/revise");
    }
  }

  lemma ApiPaths()
    ensures "/" + "api" + "/" + "sessions" == "/api/sessions"
    ensures "/" + "api" + "/" + "chat" == "/api/chat"
    ensures "/" + "api" + "/" + "mapping" == "/api/mapping"
    ensures "/" + "api" + "/" + "planning" == "/api/planning"
  {
  }

  lemma MappingPaths()
    ensures "/" + "api" + "/" + "mapping" + "/" + "update" == "/api/mapping/update"
    ensures "/" + "api" + "/" + "mapping" + "/" + "revise" == "/api/mapping/revise"
  {
  }

  lemma SessionFollows(cfg: Config, tenant: string, param: string, i: nat, e: Endpoint, last: string)
    requires i < |Table| && Table[i].endpoint == e
    requires Table[i].pattern == Segments([Lit("api"), Lit("sessions"), Param, Lit(last)])
    requires UpstreamPath(cfg, tenant, e, param) == Some(SessionPath(cfg, tenant, param, last))
    ensures UpstreamPath(cfg, tenant, Table[i].endpoint, param)
            == Some(Render(Table[i].pattern.segments, Namespace(cfg, tenant, param)))
  {
    RenderSession(last, Namespace(cfg, tenant, param));
  }

  lemma ApiPairFollows(cfg: Config, tenant: string, param: string, i: nat, e: Endpoint, b: string, path: string)
    requires i < |Table| && Table[i].endpoint == e && Table[i].pattern == Segments([Lit("api"), Lit(b)])
    requires UpstreamPath(cfg, tenant, e, param) == Some(path) && path == "/" + "api" + "/" + b
    ensures UpstreamPath(cfg, tenant, Table[i].endpoint, param)
            == Some(Render(Table[i].pattern.segments, Namespace(cfg, tenant, param)))
  {
    RenderPair("api", b, Namespace(cfg, tenant, param));
  }

  lemma MappingFollows(cfg: Config, tenant: string, param: string, i: nat, e: Endpoint, c: string, path: string)
    requires i < |Table| && Table[i].endpoint == e
    requires Table[i].pattern == Segments([Lit("api"), Lit("mapping"), Lit(c)])
    requires UpstreamPath(cfg, tenant, e, param) == Some(path) && path == "/" + "api" + "/" + "mapping" + "/" + c
    ensures UpstreamPath(cfg, tenant, Table[i].endpoint, param)
            == Some(Render(Table[i].pattern.segments, Namespace(cfg, tenant, param)))
  {
    RenderTriple("api", "mapping", c, Namespace(cfg, tenant, param));
  }

  /** The reply of `GET /`. */
  const RootReply: Value := Obj(map["status" := Str("ok"), "service" := Str("llmtwins-tenant-wrapper")])

  /** What a handler does: answer on its own, serve one of FastAPI's pages,
      probe the upstream (the health check), or forward a request upstream on
      behalf of a tenant. */
  datatype Action =
    | Answer(reply: Value)
    | ServeDocs(page: Endpoint)
    | ProbeUpstream
    | Forward(request: UpstreamRequest, tenant: string)

  /** Handles an inbound request: routes it, resolves the tenant before any
      upstream traffic, and builds the upstream request. */
  function Handle(codecs: Codecs, cfg: Config, req: Request): (r: Result<Action, Error>)
    ensures Dispatch(req.verb, req.path).NoRoute? ==> r == Failure(NotFound)
    ensures Dispatch(req.verb, req.path).NotAllowed? ==> r == Failure(MethodNotAllowed)
    ensures Dispatch(req.verb, req.path).Routed? && Dispatch(req.verb, req.path).endpoint.Root? ==>
              r == Success(Answer(RootReply))
    ensures Dispatch(req.verb, req.path).Routed? && IsDocs(Dispatch(req.verb, req.path).endpoint) ==>
              r == Success(ServeDocs(Dispatch(req.verb, req.path).endpoint))
    ensures Dispatch(req.verb, req.path).Routed? && Dispatch(req.verb, req.path).endpoint.Health? ==>
              r == Success(ProbeUpstream)
    ensures var d := Dispatch(req.verb, req.path);
            d.Routed? && !AnswersLocally(d.endpoint) && ResolveTenant(cfg, TenantSelector(req.headers)).Success? ==>
              r == Forwarded(codecs, cfg, req, ResolveTenant(cfg, TenantSelector(req.headers)).value, d.endpoint, d.param)
    ensures r.Success? && r.value.Forward? ==>
              && ResolveTenant(cfg, TenantSelector(req.headers)) == Success(r.value.tenant)
              && (cfg.validTenants == {} || r.value.tenant in cfg.validTenants)
    ensures r.Success? && r.value.Forward? ==>
              var d := Dispatch(req.verb, req.path);
              && d.Routed? && !AnswersLocally(d.endpoint)
              && r == Forwarded(codecs, cfg, req, r.value.tenant, d.endpoint, d.param)
    ensures Dispatch(req.verb, req.path).Routed? && !AnswersLocally(Dispatch(req.verb, req.path).endpoint)
            && ResolveTenant(cfg, TenantSelector(req.headers)).Failure? ==>
              r.Failure? && Status(r.error) == 403
  {
    match Dispatch(req.verb, req.path)
    case NoRoute => Failure(NotFound)
    case NotAllowed => Failure(MethodNotAllowed)
    case Routed(endpoint, param) =>
      if IsDocs(endpoint) then Success(ServeDocs(endpoint))
      else if endpoint == Root then Success(Answer(RootReply))
      else if endpoint == Health then Success(ProbeUpstream)
      else
        match ResolveTenant(cfg, TenantSelector(req.headers))
        case Failure(e) => Failure(e)
        case Success(tenant) => Forwarded(codecs, cfg, req, tenant, endpoint, param)
  }

  /** The forwarding step of every proxying handler once the tenant is known:
      the upload handler sends the raw body and leaves the query alone, the
      others go through the general proxy. */
  function Forwarded(codecs: Codecs, cfg: Config, req: Request, tenant: string, endpoint: Endpoint, param: string)
    : (r: Result<Action, Error>)
    requires !AnswersLocally(endpoint)
    ensures r.Success? ==> r.value.Forward? && r.value.tenant == tenant
    ensures r.Success? ==> r.value.request.url == cfg.upstreamBase + UpstreamPath(cfg, tenant, endpoint, param).value
    ensures r.Success? ==> cfg.tenantHeader in r.value.request.headers
    ensures r.Success? && cfg.tenantHeader != MarkerHeader ==> r.value.request.headers[cfg.tenantHeader] == tenant
    ensures endpoint == SessionUpload ==> r.Success? && r.value.request.sent == SendBytes(req.body)
    ensures r.Failure? ==> Status(r.error) == 500
  {
    var path := UpstreamPath(cfg, tenant, endpoint, param).value;
    if endpoint == SessionUpload then
      Success(Forward(UploadRequest(cfg, req, tenant, path), tenant))
    else
      match ProxyRequest(codecs, cfg, req, tenant, path, true)
      case Failure(e) => Failure(e)
      case Success(u) => Success(Forward(u, tenant))
  }

  /** End to end: a GET of `/api/sessions/{id}/state` from a caller whose
      tenant resolves to `tenant` is forwarded, bodiless, as a GET of the
      base URL followed by `/api/sessions/<tenant><separator><id>/state`. */
  lemma StateReadIsForwardedNamespaced(codecs: Codecs, cfg: Config, req: Request, tenant: string, id: string)
    requires id != "" && '/' !in id
    requires req.verb == GET && req.path == "/api/sessions/" + id + "/state"
    requires ResolveTenant(cfg, TenantSelector(req.headers)) == Success(tenant)
    ensures var r := Handle(codecs, cfg, req);
            && r.Success? && r.value.Forward? && r.value.tenant == tenant
            && r.value.request.verb == GET && r.value.request.sent == NoContent
            && r.value.request.url == cfg.upstreamBase + "/api/sessions/" + Namespace(cfg, tenant, id) + "/state"
  {
    SessionStateIsRouted(id, req.path);
    RoutedStateRead(codecs, cfg, req, tenant, id);
  }

  lemma RoutedStateRead(codecs: Codecs, cfg: Config, req: Request, tenant: string, id: string)
    requires req.verb == GET && Dispatch(req.verb, req.path) == Routed(SessionState, id)
    requires ResolveTenant(cfg, TenantSelector(req.headers)) == Success(tenant)
    ensures var r := Handle(codecs, cfg, req);
            && r.Success? && r.value.Forward? && r.value.tenant == tenant
            && r.value.request.verb == GET && r.value.request.sent == NoContent
            && r.value.request.url == cfg.upstreamBase + "/api/sessions/" + Namespace(cfg, tenant, id) + "/state"
  {
    HandleForwardsRouted(codecs, cfg, req, tenant, SessionState, id);
    StateHandlerForwardsRead(codecs, cfg, req, tenant, id);
  }

  lemma StateHandlerForwardsRead(codecs: Codecs, cfg: Config, req: Request, tenant: string, id: string)
    requires req.verb == GET
    ensures var r := Forwarded(codecs, cfg, req, tenant, SessionState, id);
            && r.Success? && r.value.Forward? && r.value.tenant == tenant
            && r.value.request.verb == GET && r.value.request.sent == NoContent
            && r.value.request.url == cfg.upstreamBase + "/api/sessions/" + Namespace(cfg, tenant, id) + "/state"
  {
    BodilessForward(codecs, cfg, req, tenant, SessionState, id);
    var sid := Namespace(cfg, tenant, id);
    StateTail();
    AppendAssoc("/api/sessions/" + sid, "/", "state");
  }

  lemma AppendAssoc(a: string, b: string, c: string)
    ensures a + b + c == a + (b + c)
  {
  }

  lemma StateTail()
    ensures "/" + "state" == "/state"
  {
  }

  lemma OneClickTail()
    ensures "pipeline" + "/" + "one_click" == "pipeline/one_click"
  {
  }

  /** A routed request to a forwarding handler, once its tenant resolves, is
      forwarded by that handler. */
  lemma HandleForwardsRouted(codecs: Codecs, cfg: Config, req: Request, tenant: string, e: Endpoint, param: string)
    requires Dispatch(req.verb, req.path) == Routed(e, param) && !AnswersLocally(e)
    requires ResolveTenant(cfg, TenantSelector(req.headers)) == Success(tenant)
    ensures Handle(codecs, cfg, req) == Forwarded(codecs, cfg, req, tenant, e, param)
  {
  }

  /** A request without a body to any forwarding handler but the upload is
      forwarded with the same method and no content. */
  lemma BodilessForward(codecs: Codecs, cfg: Config, req: Request, tenant: string, e: Endpoint, param: string)
    requires !AnswersLocally(e) && e != SessionUpload && !CarriesBody(req.verb) && WellFormed(req.verb)
    ensures var r := Forwarded(codecs, cfg, req, tenant, e, param);
            && r.Success? && r.value.Forward? && r.value.tenant == tenant
            && r.value.request.verb == req.verb && r.value.request.sent == NoContent
            && r.value.request.url == cfg.upstreamBase + UpstreamPath(cfg, tenant, e, param).value
  {
  }
}

=== FILE: headers.dfy ===
/** Outbound header construction in `proxy_request` and `upload_to_session`. */
module Headers {
  import opened Wrappers
  import opened Text
  import opened Pairs
  import opened Tenancy

  /** The header marking a hop as forwarded by the wrapper. */
  const MarkerHeader: string := "X-Tenant-Wrapper"

  /** Headers invalidated by re-transmission, compared case-insensitively. */
  predicate Dropped(key: string) {
    Lower(key) == "host" || Lower(key) == "content-length"
  }

  /** The copy loop: walks the inbound pairs in order, skips dropped names and
      lets a later pair overwrite an earlier one with the same key. */
  function CopyHeaders(inbound: seq<Pair>): map<string, string>
    decreases |inbound|
  {
    if |inbound| == 0 then map[]
    else
      var copied := CopyHeaders(inbound[..|inbound| - 1]);
      var (key, value) := inbound[|inbound| - 1];
      if Dropped(key) then copied else copied[key := value]
  }

  /** The copy loop builds the inbound dict with the dropped names removed. */
  lemma {:induction false} CopyHeadersFiltersDict(inbound: seq<Pair>)
    ensures CopyHeaders(inbound)
            == map k | k in DictFromPairs(inbound) && !Dropped(k) :: DictFromPairs(inbound)[k]
    decreases |inbound|
  {
    if |inbound| > 0 {
      CopyHeadersFiltersDict(inbound[..|inbound| - 1]);
    }
  }

  /** The outbound headers: every inbound header except host and
      content-length (last value per name), then the tenant header and, when
      `marker` is set, the wrapper marker. */
  function OutboundHeaders(cfg: Config, tenant: string, inbound: seq<Pair>, marker: bool): (h: map<string, string>)
    ensures cfg.tenantHeader in h
    ensures marker ==> MarkerHeader in h && h[MarkerHeader] == "true"
    ensures !marker || cfg.tenantHeader != MarkerHeader ==> h[cfg.tenantHeader] == tenant
    ensures forall k :: k in h && Dropped(k) ==> k == cfg.tenantHeader
    ensures forall k :: k in h && k != cfg.tenantHeader && !(marker && k == MarkerHeader) ==>
              exists i :: 0 <= i < |inbound| && inbound[i] == (k, h[k]) && IsLast(inbound, i)
    ensures forall i :: 0 <= i < |inbound| && !Dropped(inbound[i].0) ==> inbound[i].0 in h
    ensures forall i :: 0 <= i < |inbound| && IsLast(inbound, i) && !Dropped(inbound[i].0)
                        && inbound[i].0 != cfg.tenantHeader && !(marker && inbound[i].0 == MarkerHeader) ==>
              h[inbound[i].0] == inbound[i].1
  {
    CopyHeadersFiltersDict(inbound);
    DictFromPairsKeepsLast(inbound);
    var copied := CopyHeaders(inbound);
    var withTenant := copied[cfg.tenantHeader := tenant];
    if marker then withTenant[MarkerHeader := "true"] else withTenant
  }

  /** The inbound value of the tenant selector header: FastAPI reads the fixed
      name X-Tenant-ID (first occurrence, case-insensitively), whatever name
      the configuration gives the outbound tenant header. */
  function TenantSelector(inbound: seq<Pair>): (r: Option<string>)
    ensures r.None? <==> forall i :: 0 <= i < |inbound| ==> Lower(inbound[i].0) != "x-tenant-id"
    ensures r.Some? ==> exists i :: 0 <= i < |inbound| && Lower(inbound[i].0) == "x-tenant-id"
                                    && inbound[i].1 == r.value
                                    && forall j :: 0 <= j < i ==> Lower(inbound[j].0) != "x-tenant-id"
  {
    FirstValue(inbound, k => Lower(k) == "x-tenant-id")
  }
}

=== FILE: identifiers.dfy ===
/** The session identifier codec: `rewrite_session_id` adds the tenant
    namespace, `extract_original_session_id` removes it. */
module Identifiers {
  import opened Text
  import opened Tenancy

  /** The namespace a tenant's identifiers carry: `tenant + separator`. */
  function Prefix(cfg: Config, tenant: string): string {
    tenant + cfg.separator
  }

  /** `rewrite_session_id`: the empty identifier and identifiers already in the
      tenant's namespace pass through; every other identifier is prefixed. */
  function Namespace(cfg: Config, tenant: string, id: string): (r: string)
    ensures r == "" <==> id == ""
    ensures r != "" ==> StartsWith(r, Prefix(cfg, tenant))
    ensures r == id || r == Prefix(cfg, tenant) + id
    ensures StartsWith(id, Prefix(cfg, tenant)) ==> r == id
  {
    if id == "" then id
    else if StartsWith(id, Prefix(cfg, tenant)) then id
    else Prefix(cfg, tenant) + id
  }

  /** `extract_original_session_id`: removes one leading namespace, if any. */
  function Denamespace(cfg: Config, tenant: string, id: string): (r: string)
    ensures StartsWith(id, Prefix(cfg, tenant)) ==> Prefix(cfg, tenant) + r == id
    ensures !StartsWith(id, Prefix(cfg, tenant)) ==> r == id
  {
    var prefix := Prefix(cfg, tenant);
    if StartsWith(id, prefix) then id[|prefix|..] else id
  }

  /** Namespacing twice is namespacing once, so retried calls never stack
      prefixes. */
  lemma NamespaceIsIdempotent(cfg: Config, tenant: string, id: string)
    ensures Namespace(cfg, tenant, Namespace(cfg, tenant, id)) == Namespace(cfg, tenant, id)
  {
  }

  /** Removing the namespace undoes adding it, for every identifier that did
      not already look namespaced. */
  lemma DenamespaceUndoesNamespace(cfg: Config, tenant: string, id: string)
    requires !StartsWith(id, Prefix(cfg, tenant))
    ensures Denamespace(cfg, tenant, Namespace(cfg, tenant, id)) == id
  {
  }

  /** The round trip holds exactly for identifiers that do not already carry
      the namespace (or when the namespace is empty): a caller whose bare
      identifier happens to start with `tenant + separator` gets back a
      shorter one. */
  lemma RoundTripExactly(cfg: Config, tenant: string, id: string)
    ensures Denamespace(cfg, tenant, Namespace(cfg, tenant, id)) == id
            <==> (!StartsWith(id, Prefix(cfg, tenant)) || Prefix(cfg, tenant) == "")
  {
    var p := Prefix(cfg, tenant);
    if StartsWith(id, p) && p != "" {
      assert |Denamespace(cfg, tenant, id)| < |id|;
    }
  }

  /** Namespacing undoes removing the namespace, for namespaced identifiers
      whose bare part is non-empty and not itself namespaced. */
  lemma NamespaceUndoesDenamespace(cfg: Config, tenant: string, id: string)
    requires StartsWith(id, Prefix(cfg, tenant))
    requires var bare := id[|Prefix(cfg, tenant)|..];
             bare != "" && !StartsWith(bare, Prefix(cfg, tenant))
    ensures Namespace(cfg, tenant, Denamespace(cfg, tenant, id)) == id
  {
  }

  /** When the separator starts with a character no tenant name contains, an
      identifier carries the namespace of at most one tenant. */
  lemma {:induction false} NamespaceDeterminesTenant(cfg: Config, t1: string, t2: string, id: string)
    requires cfg.separator != ""
    requires cfg.separator[0] !in t1 && cfg.separator[0] !in t2
    requires StartsWith(id, Prefix(cfg, t1)) && StartsWith(id, Prefix(cfg, t2))
    ensures t1 == t2
  {
    var sep := cfg.separator;
    if |t1| < |t2| {
      PrefixCharAt(id, t1 + sep, |t1|);
      PrefixCharAt(id, t2 + sep, |t1|);
      assert false;
    } else if |t2| < |t1| {
      PrefixCharAt(id, t1 + sep, |t2|);
      PrefixCharAt(id, t2 + sep, |t2|);
      assert false;
    } else {
      assert t1 == (t1 + sep)[..|t1|] == id[..|t1|] == (t2 + sep)[..|t2|] == t2;
    }
  }

  lemma PrefixCharAt(s: string, prefix: string, i: nat)
    requires StartsWith(s, prefix) && i < |prefix|
    ensures s[i] == prefix[i]
  {
    assert s[..|prefix|][i] == s[i];
  }

  /** Under the same condition, two tenants never share an upstream
      identifier, and an identifier in another tenant's namespace comes back
      from `Denamespace` untouched. */
  lemma TenantsAreIsolated(cfg: Config, t1: string, t2: string, id1: string, id2: string)
    requires cfg.separator != ""
    requires cfg.separator[0] !in t1 && cfg.separator[0] !in t2
    requires t1 != t2 && id1 != "" && id2 != ""
    ensures Namespace(cfg, t1, id1) != Namespace(cfg, t2, id2)
    ensures Denamespace(cfg, t1, Namespace(cfg, t2, id2)) == Namespace(cfg, t2, id2)
  {
    var n2 := Namespace(cfg, t2, id2);
    if Namespace(cfg, t1, id1) == n2 {
      NamespaceDeterminesTenant(cfg, t1, t2, n2);
    }
    if StartsWith(n2, Prefix(cfg, t1)) {
      NamespaceDeterminesTenant(cfg, t1, t2, n2);
    }
  }

  /** Without that condition tenants collide: with separator "::", tenant "a"
      with identifier ":s" and tenant "a:" with identifier "s" reach the
      upstream as the same session "a:::s". */
  lemma SeparatorInTenantNameCollides(cfg: Config)
    requires cfg.separator == "::"
    ensures Namespace(cfg, "a", ":s") == Namespace(cfg, "a:", "s") == "a:::s"
  {
    assert !StartsWith(":s", "a::");
    assert !StartsWith("s", "a:::");
    assert "a" + "::" + ":s" == "a:::s";
    assert "a:" + "::" + "s" == "a:::s";
  }
}

=== FILE: json.dfy ===
/** JSON values as Python's `json` module produces them, and the codecs the
    wrapper calls as opaque, possibly failing functions. */
module Json {
  import opened Wrappers

  /** A decoded JSON document. Objects are Python dicts: one value per key. */
  datatype Value =
    | Null
    | Bool(b: bool)
    | Num(n: real)
    | Str(s: string)
    | Arr(items: seq<Value>)
    | Obj(fields: map<string, Value>)

  /** Python truthiness of a decoded value (`if data[field]:`). */
  predicate Truthy(v: Value) {
    match v
    case Null => false
    case Bool(b) => b
    case Num(n) => n != 0.0
    case Str(s) => s != ""
    case Arr(items) => items != []
    case Obj(fields) => fields != map[]
  }

  newtype byte = x: int | 0 <= x < 256

  type Bytes = seq<byte>

  /** The byte and text codecs the wrapper relies on, left abstract:
      - decodeUtf8: `bytes.decode("utf-8")`, None on invalid input;
      - encodeUtf8: `str.encode("utf-8")`, None where Python's encoder raises;
      - loads: `json.loads` on text, None on `JSONDecodeError`;
      - dumps: `json.dumps(..., ensure_ascii=False)`;
      - loadsBytes: `request.json()` / `response.json()` on a body;
      - responseText: `response.text`, which never fails. */
  datatype Codecs = Codecs(
    decodeUtf8: Bytes -> Option<string>,
    encodeUtf8: string -> Option<Bytes>,
    loads: string -> Option<Value>,
    dumps: Value -> string,
    loadsBytes: Bytes -> Option<Value>,
    responseText: Bytes -> string)

  /** `json.dumps` without `indent` never emits a raw newline: newlines inside
      strings are escaped. */
  ghost predicate Compact(codecs: Codecs) {
    forall v :: '\n' !in codecs.dumps(v)
  }
}

=== FILE: pairs.dfy ===
/** Python's `dict(...)` over a list of key/value pairs, as used for query
    parameters and headers. */
module Pairs {
  import opened Wrappers

  type Pair = (string, string)

  /** Pair `i` is the last one in `ps` with its key. */
  predicate IsLast(ps: seq<Pair>, i: nat)
    requires i < |ps|
  {
    forall j :: i < j < |ps| ==> ps[j].0 != ps[i].0
  }

  /** `dict(pairs)`: builds the dict pair by pair, a later pair overwriting an
      earlier one with the same key. */
  function DictFromPairs(ps: seq<Pair>): map<string, string>
    decreases |ps|
  {
    if |ps| == 0 then map[]
    else DictFromPairs(ps[..|ps| - 1])[ps[|ps| - 1].0 := ps[|ps| - 1].1]
  }

  /** Every key of `ps` is in the dict, every key of the dict comes from `ps`,
      and it holds the value of the last pair with that key. */
  lemma {:induction false} DictFromPairsKeepsLast(ps: seq<Pair>)
    ensures forall i :: 0 <= i < |ps| ==> ps[i].0 in DictFromPairs(ps)
    ensures forall k :: k in DictFromPairs(ps) ==>
              exists i :: 0 <= i < |ps| && ps[i] == (k, DictFromPairs(ps)[k]) && IsLast(ps, i)
    ensures forall i :: 0 <= i < |ps| && IsLast(ps, i) ==> DictFromPairs(ps)[ps[i].0] == ps[i].1
    decreases |ps|
  {
    if |ps| > 0 {
      var init := ps[..|ps| - 1];
      var (key, value) := ps[|ps| - 1];
      DictFromPairsKeepsLast(init);
      var m := DictFromPairs(init);
      var r := DictFromPairs(ps);
      assert r == m[key := value];
      forall i | 0 <= i < |ps|
        ensures ps[i].0 in r
      {
        if i < |init| { assert ps[i] == init[i]; }
      }
      forall k | k in r
        ensures exists i :: 0 <= i < |ps| && ps[i] == (k, r[k]) && IsLast(ps, i)
      {
        if k == key {
          assert ps[|ps| - 1] == (k, r[k]) && IsLast(ps, |ps| - 1);
        } else {
          var i :| 0 <= i < |init| && init[i] == (k, m[k]) && IsLast(init, i);
          assert ps[i] == init[i];
          assert IsLast(ps, i) by {
            forall j | i < j < |ps| ensures ps[j].0 != ps[i].0 {
              if j < |init| { assert ps[j] == init[j]; }
            }
          }
        }
      }
      forall i | 0 <= i < |ps| && IsLast(ps, i)
        ensures r[ps[i].0] == ps[i].1
      {
        if i < |init| {
          assert ps[i] == init[i];
          assert IsLast(init, i) by {
            forall j | i < j < |init| ensures init[j].0 != init[i].0 {
              assert ps[j] == init[j];
            }
          }
        }
      }
    }
  }

  /** Starlette's `headers.get(name)`: the value of the first pair whose key,
      lower-cased, is `name`. */
  function FirstValue(ps: seq<Pair>, matches: string -> bool): (r: Option<string>)
    ensures r.None? ==> forall i :: 0 <= i < |ps| ==> !matches(ps[i].0)
    ensures r.Some? ==> exists i :: 0 <= i < |ps| && matches(ps[i].0) && ps[i].1 == r.value
                          && forall j :: 0 <= j < i ==> !matches(ps[j].0)
    decreases |ps|
  {
    if |ps| == 0 then None
    else if matches(ps[0].0) then Some(ps[0].1)
    else
      var r := FirstValue(ps[1..], matches);
      assert forall i :: 1 <= i < |ps| ==> ps[1..][i - 1] == ps[i];
      r
  }
}

=== FILE: payload.dfy ===
/** Rewriting the session identifier fields of query maps and JSON payloads. */
module Payload {
  import opened Wrappers
  import opened Text
  import opened Json
  import opened Tenancy
  import opened Identifiers

  /** The field names that carry a session identifier, in the order the
      wrapper visits them. */
  const IdFields: seq<string> := ["session_id", "sessionId", "sid"]

  /** Towards the upstream identifiers gain the namespace; on the way back
      they lose it. */
  datatype Direction = Outbound | Inbound

  function RewriteId(cfg: Config, tenant: string, dir: Direction, id: string): string {
    match dir
    case Outbound => Namespace(cfg, tenant, id)
    case Inbound => Denamespace(cfg, tenant, id)
  }

  /** What a present identifier field becomes: a truthy string is rewritten,
      a falsy value is left alone. */
  function Rewritten(cfg: Config, tenant: string, dir: Direction, v: Value): Value {
    if Truthy(v) && v.Str? then Str(RewriteId(cfg, tenant, dir, v.s)) else v
  }

  /** A present, truthy field that is not a string: Python's `startswith`
      raises on it. */
  predicate NotAString(fields: map<string, Value>, f: string) {
    f in fields && Truthy(fields[f]) && !fields[f].Str?
  }

  /** The loop `for field in (...): if field in data and data[field]: ...`.
      It fails exactly when a visited field holds a truthy non-string; otherwise
      it keeps the key set, rewrites the visited fields and leaves every other
      entry alone. */
  function RewriteFields(cfg: Config, tenant: string, dir: Direction,
                         fields: map<string, Value>, names: seq<string>): (r: Result<map<string, Value>, Error>)
    requires forall i, j :: 0 <= i < j < |names| ==> names[i] != names[j]
    ensures r.Success? <==> forall i :: 0 <= i < |names| ==> !NotAString(fields, names[i])
    ensures r.Failure? ==> r.error.IdentifierNotString? && r.error.field in names
                           && NotAString(fields, r.error.field)
    ensures r.Success? ==> r.value.Keys == fields.Keys
    ensures r.Success? ==> forall k :: k in fields && k !in names ==> r.value[k] == fields[k]
    ensures r.Success? ==> forall k :: k in fields && k in names ==>
                             r.value[k] == Rewritten(cfg, tenant, dir, fields[k])
    decreases |names|
  {
    if |names| == 0 then Success(fields)
    else
      var f := names[0];
      var rest := names[1..];
      assert forall i :: 1 <= i < |names| ==> rest[i - 1] == names[i];
      if f in fields && Truthy(fields[f]) then
        if fields[f].Str? then
          var updated := fields[f := Str(RewriteId(cfg, tenant, dir, fields[f].s))];
          assert forall k :: k in rest ==> k != f;
          assert forall i :: 0 <= i < |rest| ==> NotAString(updated, rest[i]) == NotAString(fields, rest[i]);
          RewriteFields(cfg, tenant, dir, updated, rest)
        else
          Failure(IdentifierNotString(f))
      else
        RewriteFields(cfg, tenant, dir, fields, rest)
  }

  /** Applies the identifier rewrite to a JSON value: only objects are touched. */
  function RewriteValue(cfg: Config, tenant: string, dir: Direction, v: Value): Result<Value, Error> {
    if v.Obj? then
      match RewriteFields(cfg, tenant, dir, v.fields, IdFields)
      case Success(fields) => Success(Obj(fields))
      case Failure(e) => Failure(e)
    else
      Success(v)
  }

  /** A request body object whose identifier fields a caller may send. */
  predicate WellTypedIds(fields: map<string, Value>) {
    forall i :: 0 <= i < |IdFields| ==> !NotAString(fields, IdFields[i])
  }

  /** Request-side body rewriting: non-objects pass through; an object keeps
      its keys, its truthy identifier fields gain the namespace and nothing
      else changes. */
  function RewriteRequestBody(cfg: Config, tenant: string, v: Value): (r: Result<Value, Error>)
    ensures !v.Obj? ==> r == Success(v)
    ensures v.Obj? ==> (r.Success? <==> WellTypedIds(v.fields))
    ensures r.Failure? ==> Status(r.error) == 500
    ensures v.Obj? && r.Success? ==>
              && r.value.Obj? && r.value.fields.Keys == v.fields.Keys
              && (forall k :: k in v.fields && k !in IdFields ==> r.value.fields[k] == v.fields[k])
              && (forall k :: k in v.fields && k in IdFields && Truthy(v.fields[k]) ==>
                    v.fields[k].Str? && r.value.fields[k].Str?
                    && r.value.fields[k] == Str(Namespace(cfg, tenant, v.fields[k].s))
                    && StartsWith(r.value.fields[k].s, Prefix(cfg, tenant))
                    && (r.value.fields[k] == v.fields[k]
                        || r.value.fields[k].s == Prefix(cfg, tenant) + v.fields[k].s))
              && (forall k :: k in v.fields && k in IdFields && !Truthy(v.fields[k]) ==>
                    r.value.fields[k] == v.fields[k])
  {
    RewriteValue(cfg, tenant, Outbound, v)
  }

  /** `rewrite_response_data`: non-objects pass through; an object keeps its
      keys, its truthy identifier fields lose this tenant's namespace and
      nothing else changes. */
  function RewriteResponseData(cfg: Config, tenant: string, v: Value): (r: Result<Value, Error>)
    ensures !v.Obj? ==> r == Success(v)
    ensures v.Obj? ==> (r.Success? <==> WellTypedIds(v.fields))
    ensures r.Failure? ==> Status(r.error) == 500
    ensures v.Obj? && r.Success? ==>
              && r.value.Obj? && r.value.fields.Keys == v.fields.Keys
              && (forall k :: k in v.fields && k !in IdFields ==> r.value.fields[k] == v.fields[k])
              && (forall k :: k in v.fields && k in IdFields && Truthy(v.fields[k]) ==>
                    v.fields[k].Str? && r.value.fields[k].Str?
                    && if StartsWith(v.fields[k].s, Prefix(cfg, tenant))
                       then Prefix(cfg, tenant) + r.value.fields[k].s == v.fields[k].s
                       else r.value.fields[k] == v.fields[k])
              && (forall k :: k in v.fields && k in IdFields && !Truthy(v.fields[k]) ==>
                    r.value.fields[k] == v.fields[k])
  {
    RewriteValue(cfg, tenant, Inbound, v)
  }

  /** Request-side query rewriting: only `session_id` is namespaced, even when
      empty; `sessionId`, `sid` and every other parameter are copied. */
  function RewriteQuery(cfg: Config, tenant: string, query: map<string, string>): (r: map<string, string>)
    ensures r.Keys == query.Keys
    ensures forall k :: k in query && k != "session_id" ==> r[k] == query[k]
    ensures "session_id" in query ==> r["session_id"] == Namespace(cfg, tenant, query["session_id"])
  {
    if "session_id" in query then
      query["session_id" := Namespace(cfg, tenant, query["session_id"])]
    else
      query
  }

  /** Rewriting a query twice is rewriting it once. */
  lemma RewriteQueryIsIdempotent(cfg: Config, tenant: string, query: map<string, string>)
    ensures RewriteQuery(cfg, tenant, RewriteQuery(cfg, tenant, query)) == RewriteQuery(cfg, tenant, query)
  {
    if "session_id" in query {
      NamespaceIsIdempotent(cfg, tenant, query["session_id"]);
    }
  }

  /** Rewriting a request body twice is rewriting it once. */
  lemma RewriteRequestBodyIsIdempotent(cfg: Config, tenant: string, v: Value)
    requires RewriteRequestBody(cfg, tenant, v).Success?
    ensures var w := RewriteRequestBody(cfg, tenant, v).value;
            RewriteRequestBody(cfg, tenant, w) == Success(w)
  {
    var w := RewriteRequestBody(cfg, tenant, v).value;
    if v.Obj? {
      var r := RewriteFields(cfg, tenant, Outbound, w.fields, IdFields);
      assert r.Success?;
      forall k | k in w.fields
        ensures r.value[k] == w.fields[k]
      {
        if k in IdFields {
          if Truthy(v.fields[k]) {
            NamespaceIsIdempotent(cfg, tenant, v.fields[k].s);
          }
        }
      }
      assert r.value == w.fields;
    }
  }

  /** An identifier field holding a bare (not yet namespaced) string. */
  predicate BareIds(cfg: Config, tenant: string, fields: map<string, Value>) {
    forall k :: k in fields && k in IdFields && fields[k].Str? ==>
      !StartsWith(fields[k].s, Prefix(cfg, tenant))
  }

  /** The response rewrite undoes the request rewrite on a body whose
      identifiers are bare: what the upstream echoes back, the caller sees
      unchanged. */
  lemma ResponseUndoesRequest(cfg: Config, tenant: string, v: Value)
    requires v.Obj? ==> BareIds(cfg, tenant, v.fields)
    requires RewriteRequestBody(cfg, tenant, v).Success?
    ensures RewriteResponseData(cfg, tenant, RewriteRequestBody(cfg, tenant, v).value) == Success(v)
  {
    if v.Obj? {
      var out := RewriteFields(cfg, tenant, Outbound, v.fields, IdFields);
      var w := out.value;
      forall i | 0 <= i < |IdFields| ensures !NotAString(w, IdFields[i]) {
        var k := IdFields[i];
        if k in v.fields {
          assert w[k] == Rewritten(cfg, tenant, Outbound, v.fields[k]);
        }
      }
      var back := RewriteFields(cfg, tenant, Inbound, w, IdFields);
      forall k | k in w
        ensures back.value[k] == v.fields[k]
      {
        if k in IdFields {
          RewrittenRoundTrip(cfg, tenant, v.fields[k]);
        }
      }
      assert back.value == v.fields;
    }
  }

  /** One identifier field through both directions. */
  lemma RewrittenRoundTrip(cfg: Config, tenant: string, v: Value)
    requires v.Str? ==> !StartsWith(v.s, Prefix(cfg, tenant))
    ensures Rewritten(cfg, tenant, Inbound, Rewritten(cfg, tenant, Outbound, v)) == v
  {
    if Truthy(v) && v.Str? {
      DenamespaceUndoesNamespace(cfg, tenant, v.s);
    }
  }
}

=== FILE: proxy.dfy ===
/** `proxy_request` and the upload handler with the HTTP client removed: what
    is sent upstream, and what the caller gets back. */
module Proxy {
  import opened Wrappers
  import opened Json
  import opened Pairs
  import opened Tenancy
  import opened Payload
  import opened Headers
  import opened Stream

  datatype Method = GET | POST | PUT | DELETE | PATCH | OtherMethod(name: string)

  /** A method value as the server produces it: `OtherMethod` never names one
      of the five methods that have their own constructor. */
  predicate WellFormed(m: Method) {
    m.OtherMethod? ==> m.name !in {"GET", "POST", "PUT", "DELETE", "PATCH"}
  }

  /** The methods whose body the wrapper reads. */
  predicate CarriesBody(m: Method) {
    m.POST? || m.PUT? || m.PATCH?
  }

  /** An inbound request: query and headers as the ordered pairs the client
      sent, the body as raw bytes. */
  datatype Request = Request(verb: Method, path: string, query: seq<Pair>, headers: seq<Pair>, body: Bytes)

  /** The wrapper's `body` variable: none, a decoded JSON value, or the raw
      bytes of a body that is not JSON. */
  datatype Body = Absent | Parsed(value: Value) | Opaque(raw: Bytes)

  /** What the HTTP client is given: `json=`, `content=`, or neither. */
  datatype Sent = NoContent | SendJson(value: Value) | SendBytes(raw: Bytes)

  /** The request the wrapper issues upstream. */
  datatype UpstreamRequest = UpstreamRequest(
    verb: Method,
    url: string,
    query: map<string, string>,
    headers: map<string, string>,
    sent: Sent,
    streamed: bool)

  /** Reads and rewrites the body of a POST, PUT or PATCH: a JSON object gets
      its identifier fields namespaced, any other JSON value is kept, and a
      body that is not JSON is kept as bytes. */
  function ReadBody(codecs: Codecs, cfg: Config, tenant: string, req: Request, rewriteBody: bool): (r: Result<Body, Error>)
    ensures !CarriesBody(req.verb) ==> r == Success(Absent)
    ensures r.Success? && r.value.Absent? ==> !CarriesBody(req.verb)
    ensures r.Failure? ==> Status(r.error) == 500
    ensures CarriesBody(req.verb) && codecs.loadsBytes(req.body).None? ==> r == Success(Opaque(req.body))
    ensures CarriesBody(req.verb) && codecs.loadsBytes(req.body).Some? ==>
              var v := codecs.loadsBytes(req.body).value;
              if rewriteBody && v.Obj? then
                && (r.Success? <==> WellTypedIds(v.fields))
                && (r.Success? ==> r.value == Parsed(RewriteRequestBody(cfg, tenant, v).value))
              else r == Success(Parsed(v))
  {
    if !CarriesBody(req.verb) then Success(Absent)
    else
      match codecs.loadsBytes(req.body)
      case None => Success(Opaque(req.body))
      case Some(v) =>
        if rewriteBody && v.Obj? then
          match RewriteRequestBody(cfg, tenant, v)
          case Success(w) => Success(Parsed(w))
          case Failure(e) => Failure(e)
        else
          Success(Parsed(v))
  }

  /** The body handed to the HTTP client as the source writes it: only a dict
      goes out as JSON and only bytes go out as content, so a decoded JSON
      value that is not an object is sent as nothing at all. */
  function SentAsWritten(body: Body): (s: Sent)
    ensures body.Parsed? && !body.value.Obj? ==> s == NoContent
    ensures body.Parsed? && body.value.Obj? ==> s == SendJson(body.value)
    ensures body.Opaque? ==> s == SendBytes(body.raw)
  {
    match body
    case Parsed(v) => if v.Obj? then SendJson(v) else NoContent
    case Opaque(raw) => SendBytes(raw)
    case Absent => NoContent
  }

  /** A POST whose body is the JSON array `[1]` reaches the upstream with no
      body under the source's selection. */
  lemma ArrayBodyDroppedAsWritten(codecs: Codecs, cfg: Config, tenant: string, req: Request)
    requires req.verb == POST && req.body == [0x5B, 0x31, 0x5D]
    requires codecs.loadsBytes(req.body) == Some(Arr([Num(1.0)]))
    ensures ReadBody(codecs, cfg, tenant, req, true) == Success(Parsed(Arr([Num(1.0)])))
    ensures SentAsWritten(ReadBody(codecs, cfg, tenant, req, true).value) == NoContent
  {
  }

  /** The body handed to the HTTP client, corrected: a JSON object goes out as
      JSON, and everything else that was read goes out as the bytes received.
      A body that was read is never dropped. */
  function Outgoing(body: Body, raw: Bytes): (s: Sent)
    ensures s.NoContent? <==> body.Absent?
    ensures body.Parsed? && body.value.Obj? ==> s == SendJson(body.value)
    ensures body.Opaque? ==> s == SendBytes(body.raw)
    ensures body.Parsed? && !body.value.Obj? ==> s == SendBytes(raw)
  {
    match body
    case Parsed(v) => if v.Obj? then SendJson(v) else SendBytes(raw)
    case Opaque(bytes) => SendBytes(bytes)
    case Absent => NoContent
  }

  /** The correction changes nothing where the source sends a body. */
  lemma OutgoingAgreesWhereSourceSends(body: Body, raw: Bytes)
    requires SentAsWritten(body) != NoContent
    ensures Outgoing(body, raw) == SentAsWritten(body)
  {
  }

  /** The request asks for a streamed reply: its body is a JSON object whose
      `stream` entry is truthy. */
  predicate StreamRequested(codecs: Codecs, req: Request) {
    && CarriesBody(req.verb)
    && codecs.loadsBytes(req.body).Some?
    && codecs.loadsBytes(req.body).value.Obj?
    && "stream" in codecs.loadsBytes(req.body).value.fields
    && Truthy(codecs.loadsBytes(req.body).value.fields["stream"])
  }

  /** `body.get("stream", False)` on a dict body. */
  predicate IsStreaming(body: Body) {
    body.Parsed? && body.value.Obj? && "stream" in body.value.fields && Truthy(body.value.fields["stream"])
  }

  /** Rewriting the body never touches its `stream` entry: the body the
      wrapper reads asks for streaming exactly when the request did. */
  lemma ReadBodyKeepsStreamFlag(codecs: Codecs, cfg: Config, tenant: string, req: Request, rewriteBody: bool)
    requires ReadBody(codecs, cfg, tenant, req, rewriteBody).Success?
    ensures IsStreaming(ReadBody(codecs, cfg, tenant, req, rewriteBody).value) <==> StreamRequested(codecs, req)
  {
    if CarriesBody(req.verb) && codecs.loadsBytes(req.body).Some? {
      var v := codecs.loadsBytes(req.body).value;
      if rewriteBody && v.Obj? {
        assert "stream" !in IdFields;
      }
    }
  }

  /** `proxy_request` up to the upstream call. It fails only when a body field
      it rewrites holds a truthy non-string. Otherwise: the URL is the base
      followed by `path`; the query has `session_id` namespaced; the headers
      are the outbound set with the marker; a JSON object body goes out with
      its identifiers namespaced, a body that is not JSON goes out as the
      bytes received, and no body is ever dropped; the reply is streamed
      exactly when the request's own JSON object asks for it. */
  function ProxyRequest(codecs: Codecs, cfg: Config, req: Request, tenant: string, path: string,
                        rewriteBody: bool): (r: Result<UpstreamRequest, Error>)
    ensures r.Success? <==>
              !(&& CarriesBody(req.verb) && rewriteBody
                && codecs.loadsBytes(req.body).Some? && codecs.loadsBytes(req.body).value.Obj?
                && !WellTypedIds(codecs.loadsBytes(req.body).value.fields))
    ensures r.Failure? ==> Status(r.error) == 500
    ensures r.Success? ==> r.value.verb == req.verb && r.value.url == cfg.upstreamBase + path
    ensures r.Success? ==> r.value.query == RewriteQuery(cfg, tenant, DictFromPairs(req.query))
    ensures r.Success? ==> r.value.headers == OutboundHeaders(cfg, tenant, req.headers, true)
    ensures r.Success? ==> (r.value.streamed <==> StreamRequested(codecs, req))
    ensures r.Success? ==> (r.value.sent.NoContent? <==> !CarriesBody(req.verb))
    ensures CarriesBody(req.verb) && codecs.loadsBytes(req.body).None? ==>
              r.Success? && r.value.sent == SendBytes(req.body)
    ensures r.Success? && CarriesBody(req.verb) && rewriteBody && codecs.loadsBytes(req.body).Some?
            && codecs.loadsBytes(req.body).value.Obj? ==>
              r.value.sent == SendJson(RewriteRequestBody(cfg, tenant, codecs.loadsBytes(req.body).value).value)
  {
    var query := RewriteQuery(cfg, tenant, DictFromPairs(req.query));
    match ReadBody(codecs, cfg, tenant, req, rewriteBody)
    case Failure(e) => Failure(e)
    case Success(body) =>
      var headers := OutboundHeaders(cfg, tenant, req.headers, true);
      Success(UpstreamRequest(req.verb, cfg.upstreamBase + path, query, headers,
                              Outgoing(body, req.body), IsStreaming(body)))
  }

  /** The upload handler's request: the raw body, the query copied without
      any rewriting, and the outbound headers without the marker. */
  function UploadRequest(cfg: Config, req: Request, tenant: string, path: string): (u: UpstreamRequest)
    ensures u.verb == POST && u.url == cfg.upstreamBase + path && !u.streamed
    ensures u.query == DictFromPairs(req.query)
    ensures u.headers == OutboundHeaders(cfg, tenant, req.headers, false)
    ensures u.sent == SendBytes(req.body)
  {
    UpstreamRequest(POST, cfg.upstreamBase + path, DictFromPairs(req.query),
                    OutboundHeaders(cfg, tenant, req.headers, false), SendBytes(req.body), false)
  }

  /** The upload handler sends what the generic proxy would send for the same
      POST, minus the tenant's rewriting: the proxy adds the namespaced query
      and the marker header, and for a body that is not JSON nothing else
      differs. */
  lemma UploadIsProxyWithoutRewriting(codecs: Codecs, cfg: Config, req: Request, tenant: string, path: string)
    requires req.verb == POST
    ensures var u := UploadRequest(cfg, req, tenant, path);
            var p := ProxyRequest(codecs, cfg, req, tenant, path, true);
            && (p.Success? ==>
                  && p.value.verb == u.verb && p.value.url == u.url
                  && p.value.query == RewriteQuery(cfg, tenant, u.query)
                  && p.value.headers == u.headers[MarkerHeader := "true"])
            && (codecs.loadsBytes(req.body).None? ==>
                  p == Success(u.(query := RewriteQuery(cfg, tenant, u.query),
                                  headers := u.headers[MarkerHeader := "true"])))
  {
  }

  /** A complete upstream reply. */
  datatype UpstreamResponse = UpstreamResponse(status: int, content: Bytes)

  /** A JSON reply to the caller (`JSONResponse`). */
  datatype Reply = Reply(status: int, content: Value)

  /** The buffered path's reply: the upstream status, with a JSON object's
      identifier fields de-namespaced and any other JSON value unchanged. A
      body that is not JSON is returned as a JSON string holding its text. */
  function BufferedReply(codecs: Codecs, cfg: Config, tenant: string, resp: UpstreamResponse,
                         rewriteResponse: bool): (r: Result<Reply, Error>)
    ensures r.Success? ==> r.value.status == resp.status
    ensures r.Failure? ==> Status(r.error) == 500
    ensures codecs.loadsBytes(resp.content).None? ==>
              r == Success(Reply(resp.status, Str(codecs.responseText(resp.content))))
    ensures codecs.loadsBytes(resp.content).Some? && (!rewriteResponse || !codecs.loadsBytes(resp.content).value.Obj?) ==>
              r == Success(Reply(resp.status, codecs.loadsBytes(resp.content).value))
    ensures codecs.loadsBytes(resp.content).Some? && rewriteResponse ==>
              var v := codecs.loadsBytes(resp.content).value;
              && (v.Obj? ==> (r.Success? <==> WellTypedIds(v.fields)))
              && (r.Success? ==> r.value.content == RewriteResponseData(cfg, tenant, v).value)
  {
    match codecs.loadsBytes(resp.content)
    case None => Success(Reply(resp.status, Str(codecs.responseText(resp.content))))
    case Some(v) =>
      if rewriteResponse && v.Obj? then
        match RewriteResponseData(cfg, tenant, v)
        case Success(w) => Success(Reply(resp.status, w))
        case Failure(e) => Failure(e)
      else
        Success(Reply(resp.status, v))
  }

  /** An upstream that echoes the body it was sent: the caller gets back the
      body it sent, with its bare identifiers, and the upstream status. */
  lemma BufferedReplyUndoesRequest(codecs: Codecs, cfg: Config, tenant: string, resp: UpstreamResponse, v: Value)
    requires v.Obj? ==> BareIds(cfg, tenant, v.fields)
    requires RewriteRequestBody(cfg, tenant, v).Success?
    requires codecs.loadsBytes(resp.content) == Some(RewriteRequestBody(cfg, tenant, v).value)
    ensures BufferedReply(codecs, cfg, tenant, resp, true) == Success(Reply(resp.status, v))
  {
    ResponseUndoesRequest(cfg, tenant, v);
  }

  /** A streamed reply (`StreamingResponse`). */
  datatype StreamedReply = StreamedReply(status: int, mediaType: string, chunks: seq<Bytes>)

  /** The streamed path's reply: status 200 and NDJSON whatever the upstream
      answered, one chunk out per chunk in, each de-namespaced on its own. */
  function StreamReply(codecs: Codecs, cfg: Config, tenant: string, upstreamStatus: int,
                       chunks: seq<Bytes>, rewriteResponse: bool): (r: StreamedReply)
    ensures r.status == 200 && r.mediaType == "application/x-ndjson"
    ensures |r.chunks| == |chunks|
    ensures rewriteResponse ==> forall i :: 0 <= i < |chunks| ==>
              r.chunks[i] == RewriteResponseSession(codecs, cfg, tenant, chunks[i])
    ensures !rewriteResponse ==> r.chunks == chunks
  {
    StreamedReply(200, "application/x-ndjson", RewriteStream(codecs, cfg, tenant, chunks, rewriteResponse))
  }
}

=== FILE: routes.dfy ===
/** The route table and the router: which handler a request reaches, given
    its method and path. */
module Routes {
  import opened Wrappers
  import opened Text
  import opened Proxy
  import opened Templates
  /** The handlers, in the order they are registered: first the four pages
      FastAPI's constructor adds (the OpenAPI schema, Swagger UI, its OAuth2
      redirect and ReDoc), then the wrapper's own. */
  datatype Endpoint =
    | OpenApi | Docs | DocsOAuthRedirect | ReDoc
    | Root | Health | CreateSession | SessionState | SessionUpload | Chat
    | Mapping | MappingUpdate | MappingRevise | OneClick | Planning | CatchAll

  /** A path template: the segments after the leading slash, or the
      catch-all `/{path:path}` that takes the whole rest of the path. */
  datatype Pattern = Segments(segments: seq<Segment>) | AnyPath

  datatype Route = Route(pattern: Pattern, verbs: set<Method>, endpoint: Endpoint)

  /** FastAPI's own pages are plain routes, which answer HEAD as well as GET. */
  const Head: Method := OtherMethod("HEAD")

  predicate IsDocs(e: Endpoint) {
    e == OpenApi || e == Docs || e == DocsOAuthRedirect || e == ReDoc
  }

  /** The handlers that answer without the upstream being sent a request on
      the caller's behalf. */
  predicate AnswersLocally(e: Endpoint) {
    IsDocs(e) || e == Root || e == Health
  }

  /** The paths of FastAPI's own pages. */
  const DocsPaths: set<string> := {"/openapi.json", "/docs", "/docs/oauth2-redirect", "/redoc"}

  /** The route table, in registration order: FastAPI's pages, the specific
      templates, and the catch-all last. */
  const Table: seq<Route> := [
    Route(Segments([Lit("openapi.json")]), {GET, Head}, OpenApi),
    Route(Segments([Lit("docs")]), {GET, Head}, Docs),
    Route(Segments([Lit("docs"), Lit("oauth2-redirect")]), {GET, Head}, DocsOAuthRedirect),
    Route(Segments([Lit("redoc")]), {GET, Head}, ReDoc),
    Route(Segments([Lit("")]), {GET}, Root),
    Route(Segments([Lit("health")]), {GET}, Health),
    Route(Segments([Lit("api"), Lit("sessions")]), {POST}, CreateSession),
    Route(Segments([Lit("api"), Lit("sessions"), Param, Lit("state")]), {GET}, SessionState),
    Route(Segments([Lit("api"), Lit("sessions"), Param, Lit("upload")]), {POST}, SessionUpload),
    Route(Segments([Lit("api"), Lit("chat")]), {POST}, Chat),
    Route(Segments([Lit("api"), Lit("mapping")]), {POST}, Mapping),
    Route(Segments([Lit("api"), Lit("mapping"), Lit("update")]), {POST}, MappingUpdate),
    Route(Segments([Lit("api"), Lit("mapping"), Lit("revise")]), {POST}, MappingRevise),
    Route(Segments([Lit("api"), Lit("sessions"), Param, Lit("pipeline"), Lit("one_click")]), {POST}, OneClick),
    Route(Segments([Lit("api"), Lit("planning")]), {POST}, Planning),
    Route(AnyPath, {GET, POST, PUT, DELETE, PATCH}, CatchAll)
  ]

  /** A route accepts exactly the methods it declares: the decorators do not
      add HEAD to GET. */
  predicate Accepts(route: Route, verb: Method) {
    verb in route.verbs
  }

  /** Matches the part of a path after its leading slash, given also as its
      '/'-separated segments. */
  function Matches(pattern: Pattern, rest: string, parts: seq<string>): Option<string> {
    match pattern
    case Segments(segments) => MatchSegments(segments, parts)
    case AnyPath => Some(rest)
  }

  /** The route matches both the path and the method. */
  predicate Full(route: Route, verb: Method, rest: string, parts: seq<string>) {
    Matches(route.pattern, rest, parts).Some? && Accepts(route, verb)
  }

  /** Routing outcome: a handler with its captured parameter, 405 when only
      the method failed to match, 404 when nothing matched. */
  datatype Dispatched = Routed(endpoint: Endpoint, param: string) | NotAllowed | NoRoute

  /** The router's search: the first route matching path and method wins;
      failing that, a route matching the path alone makes it a 405. */
  function FirstMatch(routes: seq<Route>, verb: Method, rest: string, parts: seq<string>, partial: bool): Dispatched
    decreases |routes|
  {
    if |routes| == 0 then (if partial then NotAllowed else NoRoute)
    else
      match Matches(routes[0].pattern, rest, parts)
      case Some(param) =>
        if Accepts(routes[0], verb) then Routed(routes[0].endpoint, param)
        else FirstMatch(routes[1..], verb, rest, parts, true)
      case None => FirstMatch(routes[1..], verb, rest, parts, partial)
  }

  /** The search finds a handler exactly when some route matches both path
      and method, and then it is the first such route; it answers 404 exactly
      when no route matches the path and none did before. */
  lemma FirstMatchIsFirst(routes: seq<Route>, verb: Method, rest: string, parts: seq<string>, partial: bool)
    ensures var d := FirstMatch(routes, verb, rest, parts, partial);
            && (d.Routed? <==> exists i :: 0 <= i < |routes| && Full(routes[i], verb, rest, parts))
            && (d.Routed? ==> exists i :: && 0 <= i < |routes| && Full(routes[i], verb, rest, parts)
                                          && (forall j :: 0 <= j < i ==> !Full(routes[j], verb, rest, parts))
                                          && d == Routed(routes[i].endpoint, Matches(routes[i].pattern, rest, parts).value))
            && (d.NoRoute? <==> !partial && forall i :: 0 <= i < |routes| ==> Matches(routes[i].pattern, rest, parts).None?)
  {
    FirstMatchFindsFull(routes, verb, rest, parts, partial);
    FirstMatchTakesFirst(routes, verb, rest, parts, partial);
    FirstMatchNoRoute(routes, verb, rest, parts, partial);
  }

  lemma {:induction false} FirstMatchFindsFull(routes: seq<Route>, verb: Method, rest: string, parts: seq<string>, partial: bool)
    ensures FirstMatch(routes, verb, rest, parts, partial).Routed? <==>
            exists i :: 0 <= i < |routes| && Full(routes[i], verb, rest, parts)
    decreases |routes|
  {
    if |routes| > 0 {
      var tail := routes[1..];
      assert forall i :: 1 <= i < |routes| ==> tail[i - 1] == routes[i];
      FirstMatchFindsFull(tail, verb, rest, parts, true);
      FirstMatchFindsFull(tail, verb, rest, parts, partial);
    }
  }

  lemma {:induction false} FirstMatchTakesFirst(routes: seq<Route>, verb: Method, rest: string, parts: seq<string>, partial: bool)
    ensures var d := FirstMatch(routes, verb, rest, parts, partial);
            d.Routed? ==> exists i :: && 0 <= i < |routes| && Full(routes[i], verb, rest, parts)
                                      && (forall j :: 0 <= j < i ==> !Full(routes[j], verb, rest, parts))
                                      && d == Routed(routes[i].endpoint, Matches(routes[i].pattern, rest, parts).value)
    decreases |routes|
  {
    if |routes| > 0 {
      var tail := routes[1..];
      assert forall i :: 1 <= i < |routes| ==> tail[i - 1] == routes[i];
      FirstMatchTakesFirst(tail, verb, rest, parts, true);
      FirstMatchTakesFirst(tail, verb, rest, parts, partial);
    }
  }

  lemma {:induction false} FirstMatchNoRoute(routes: seq<Route>, verb: Method, rest: string, parts: seq<string>, partial: bool)
    ensures FirstMatch(routes, verb, rest, parts, partial).NoRoute? <==>
            !partial && forall i :: 0 <= i < |routes| ==> Matches(routes[i].pattern, rest, parts).None?
    decreases |routes|
  {
    if |routes| > 0 {
      var tail := routes[1..];
      assert forall i :: 1 <= i < |routes| ==> tail[i - 1] == routes[i];
      FirstMatchNoRoute(tail, verb, rest, parts, true);
      FirstMatchNoRoute(tail, verb, rest, parts, partial);
    }
  }

  /** Routes a request by method and path. A path that does not start with
      '/' reaches nothing (404); every other path at least reaches the
      catch-all, so a 405 means the method is none of the five it accepts;
      and the handler reached is one whose route accepts the method. */
  function Dispatch(verb: Method, path: string): (d: Dispatched)
    ensures d.NoRoute? <==> |path| == 0 || path[0] != '/'
    ensures d.NotAllowed? ==> verb.OtherMethod?
    ensures d.Routed? ==> exists i :: 0 <= i < |Table| && Table[i].endpoint == d.endpoint && Accepts(Table[i], verb)
  {
    if |path| == 0 || path[0] != '/' then NoRoute
    else
      var rest, parts := path[1..], Split(path[1..], '/');
      var d := FirstMatch(Table, verb, rest, parts, false);
      assert !d.NoRoute? && (d.NotAllowed? ==> verb.OtherMethod?)
             && (d.Routed? ==> exists i :: 0 <= i < |Table| && Table[i].endpoint == d.endpoint && Accepts(Table[i], verb)) by {
        FirstMatchIsFirst(Table, verb, rest, parts, false);
        assert Matches(Table[|Table| - 1].pattern, rest, parts).Some?;
      }
      d
  }

  /** The router searches the table with the path's text after the leading
      slash and its segments. */
  lemma DispatchSearchesTable(verb: Method, path: string)
    requires |path| > 0 && path[0] == '/'
    ensures Dispatch(verb, path) == FirstMatch(Table, verb, path[1..], Split(path[1..], '/'), false)
  {
  }

  /** Routes that do not match the path can be skipped: the search goes on
      from the first route not yet ruled out, with nothing learnt. */
  lemma {:induction false} SkipRoutes(routes: seq<Route>, k: nat, verb: Method, rest: string, parts: seq<string>, partial: bool)
    requires k <= |routes|
    requires forall j :: 0 <= j < k ==> Matches(routes[j].pattern, rest, parts).None?
    ensures FirstMatch(routes, verb, rest, parts, partial) == FirstMatch(routes[k..], verb, rest, parts, partial)
    decreases k
  {
    if k > 0 {
      var tail := routes[1..];
      assert forall j :: 0 <= j < k - 1 ==> tail[j] == routes[j + 1];
      SkipRoutes(tail, k - 1, verb, rest, parts, partial);
      assert tail[k - 1..] == routes[k..];
    }
  }

  /** Every path reaches a handler under the five methods the catch-all
      accepts. */
  lemma CatchAllIsTotal(verb: Method, path: string)
    requires |path| > 0 && path[0] == '/' && '\n' !in path
    requires verb in {GET, POST, PUT, DELETE, PATCH}
    ensures Dispatch(verb, path).Routed?
  {
    var rest, parts := path[1..], Split(path[1..], '/');
    DispatchSearchesTable(verb, path);
    FirstMatchIsFirst(Table, verb, rest, parts, false);
    assert Full(Table[|Table| - 1], verb, rest, parts);
  }

  /** Every method other than those five and HEAD is refused with 405 on
      every path. */
  lemma OtherMethodsAreRefused(verb: Method, path: string)
    requires |path| > 0 && path[0] == '/' && '\n' !in path
    requires verb.OtherMethod? && verb != Head && WellFormed(verb)
    ensures Dispatch(verb, path) == NotAllowed
  {
    var rest, parts := path[1..], Split(path[1..], '/');
    DispatchSearchesTable(verb, path);
    TableRefuses(verb, rest, parts);
    RefusedEverywhere(Table, verb, rest, parts, false);
  }

  /** No route of the table accepts a method outside the standard five and
      HEAD. */
  lemma TableRefuses(verb: Method, rest: string, parts: seq<string>)
    requires verb.OtherMethod? && verb != Head
    ensures forall i :: 0 <= i < |Table| ==> !Full(Table[i], verb, rest, parts)
  {
    TableMethods();
    assert verb !in {GET, POST, PUT, DELETE, PATCH, Head};
  }

  /** HEAD is refused with 405 everywhere but on FastAPI's own pages. */
  lemma HeadIsRefused(path: string)
    requires |path| > 0 && path[0] == '/' && '\n' !in path
    requires path !in DocsPaths
    ensures Dispatch(Head, path) == NotAllowed
  {
    var rest, parts := path[1..], Split(path[1..], '/');
    DispatchSearchesTable(Head, path);
    TableMethods();
    assert path == "/" + rest;
    forall i | 0 <= i < 4 ensures Matches(Table[i].pattern, rest, parts).None? {
      if Matches(Table[i].pattern, rest, parts).Some? {
        DocsTemplates(i);
        MatchRenders(Table[i].pattern.segments, rest, Matches(Table[i].pattern, rest, parts).value);
      }
    }
    RefusedEverywhere(Table, Head, rest, parts, false);
  }

  /** Every route of the table accepts only the five standard methods, and
      FastAPI's pages alone accept HEAD. */
  lemma TableMethods()
    ensures Table[|Table| - 1].pattern == AnyPath
    ensures forall i :: 0 <= i < |Table| ==> Table[i].verbs <= {GET, POST, PUT, DELETE, PATCH, Head}
    ensures forall i :: 4 <= i < |Table| ==> Head !in Table[i].verbs
  {
  }

  /** A method that no route matching the path accepts is refused with 405
      by any table that ends with the catch-all. */
  lemma {:induction false} RefusedEverywhere(routes: seq<Route>, verb: Method, rest: string, parts: seq<string>, partial: bool)
    requires |routes| > 0 && routes[|routes| - 1].pattern == AnyPath
    requires forall i :: 0 <= i < |routes| ==> !Full(routes[i], verb, rest, parts)
    ensures FirstMatch(routes, verb, rest, parts, partial) == NotAllowed
    decreases |routes|
  {
    var tail := routes[1..];
    if |routes| == 1 {
      assert Matches(routes[0].pattern, rest, parts).Some?;
      assert FirstMatch(tail, verb, rest, parts, true) == NotAllowed;
    } else {
      assert forall i :: 0 <= i < |tail| ==> tail[i] == routes[i + 1];
      RefusedEverywhere(tail, verb, rest, parts, true);
      RefusedEverywhere(tail, verb, rest, parts, partial);
    }
  }

  /** FastAPI's pages are literal templates rendering to the paths in
      `DocsPaths`. */
  lemma DocsTemplates(i: nat)
    requires i < 4
    ensures Table[i].pattern.Segments? && OneParamAtMost(Table[i].pattern.segments)
    ensures forall sid :: Render(Table[i].pattern.segments, sid) in DocsPaths
  {
    if i == 0 {
      SingleDocsPage(0, "openapi.json", "/openapi.json");
    } else if i == 1 {
      SingleDocsPage(1, "docs", "/docs");
    } else if i == 2 {
      OAuthRedirectPage();
    } else {
      SingleDocsPage(3, "redoc", "/redoc");
    }
  }

  lemma SingleDocsPage(i: nat, a: string, path: string)
    requires i < |Table| && Table[i].pattern == Segments([Lit(a)])
    requires path == "/" + a && path in DocsPaths
    ensures OneParamAtMost(Table[i].pattern.segments)
    ensures forall sid :: Render(Table[i].pattern.segments, sid) in DocsPaths
  {
    forall sid ensures Render(Table[i].pattern.segments, sid) in DocsPaths {
      RenderSingle(a, sid);
    }
  }

  lemma OAuthRedirectPage()
    ensures Table[2].pattern.Segments? && OneParamAtMost(Table[2].pattern.segments)
    ensures forall sid :: Render(Table[2].pattern.segments, sid) in DocsPaths
  {
    OAuthRedirectPath();
    forall sid ensures Render(Table[2].pattern.segments, sid) in DocsPaths {
      RenderPair("docs", "oauth2-redirect", sid);
    }
  }

  lemma OAuthRedirectPath()
    ensures "/" + "docs" + "/" + "oauth2-redirect" == "/docs/oauth2-redirect"
  {
  }

  /** The segments of `/api/sessions/{id}/<tail>`. */
  lemma SessionPathSegments(id: string, tail: seq<string>, rest: string)
    requires id != "" && '/' !in id
    requires |tail| >= 1 && forall i :: 0 <= i < |tail| ==> '/' !in tail[i]
    requires rest == "api/sessions/" + id + "/" + Join(tail, '/')
    ensures Split(rest, '/') == ["api", "sessions", id] + tail
  {
    var parts := ["api", "sessions", id] + tail;
    assert Join(parts[2..], '/') == id + "/" + Join(tail, '/') by {
      assert parts[2..][1..] == tail;
    }
    assert Join(parts[1..], '/') == "sessions/" + id + "/" + Join(tail, '/') by {
      assert parts[1..][1..] == parts[2..];
    }
    assert Join(parts, '/') == rest by {
      assert parts[1..] == ["sessions", id] + tail;
    }
    SplitJoin(parts, '/');
  }

  /** `/api/sessions/{id}/<last>` has four segments. */
  lemma SessionPathSplit(id: string, last: string)
    requires id != "" && '/' !in id && '/' !in last
    ensures var path := "/api/sessions/" + id + "/" + last;
            && path[1..] == "api/sessions/" + id + "/" + last
            && Split(path[1..], '/') == ["api", "sessions", id, last]
  {
    var path := "/api/sessions/" + id + "/" + last;
    var rest := path[1..];
    assert rest == "api/sessions/" + id + "/" + Join([last], '/');
    SessionPathSegments(id, [last], rest);
  }

  /** The path `/api/sessions/{id}/<last>` is routed on its four segments. */
  lemma SessionPathDispatch(verb: Method, id: string, last: string, path: string)
    requires id != "" && '/' !in id && '/' !in last
    requires path == "/api/sessions/" + id + "/" + last
    ensures |path| > 0 && path[1..] == "api/sessions/" + id + "/" + last
    ensures Dispatch(verb, path) == FirstMatch(Table, verb, path[1..], ["api", "sessions", id, last], false)
  {
    SessionPathSplit(id, last);
    DispatchSearchesTable(verb, path);
  }

  /** The templates before the state handler's are too short for a path of
      four segments. */
  lemma ShortTemplatesMiss(rest: string, parts: seq<string>)
    requires |parts| == 4
    ensures forall j :: 0 <= j < 7 ==> Matches(Table[j].pattern, rest, parts).None?
  {
    forall j | 0 <= j < 7 ensures Matches(Table[j].pattern, rest, parts).None? {
      assert |Table[j].pattern.segments| < 4;
    }
  }

  /** The templates after the upload handler's do not have four segments. */
  lemma LaterTemplatesMiss(rest: string, parts: seq<string>)
    requires |parts| == 4
    ensures forall j :: 9 <= j < 15 ==> Matches(Table[j].pattern, rest, parts).None?
  {
    forall j | 9 <= j < 15 ensures Matches(Table[j].pattern, rest, parts).None? {
      assert |Table[j].pattern.segments| != 4;
    }
  }

  /** The search for a GET on `/api/sessions/{id}/state` stops at the state
      handler. */
  lemma StateSearch(id: string, rest: string)
    requires id != ""
    ensures FirstMatch(Table, GET, rest, ["api", "sessions", id, "state"], false) == Routed(SessionState, id)
  {
    var parts := ["api", "sessions", id, "state"];
    ShortTemplatesMiss(rest, parts);
    SkipRoutes(Table, 7, GET, rest, parts, false);
    SessionTemplate(id, "state", "state");
    assert Table[7..][0] == Table[7];
  }

  /** On `/api/sessions/{id}/state` the state handler's route refuses POST and
      the upload handler's does not match. */
  lemma SessionTemplatesRefusePost(id: string, rest: string)
    requires id != ""
    ensures !Full(Table[7], POST, rest, ["api", "sessions", id, "state"])
    ensures !Full(Table[8], POST, rest, ["api", "sessions", id, "state"])
  {
    assert !Accepts(Table[7], POST);
    var parts := ["api", "sessions", id, "state"];
    assert !Fits(Table[8].pattern.segments[3], parts[3]);
  }

  /** No route before the catch-all takes a POST on `/api/sessions/{id}/state`. */
  lemma NoRouteTakesStatePost(id: string, rest: string)
    requires id != ""
    ensures forall j :: 0 <= j < 15 ==> !Full(Table[j], POST, rest, ["api", "sessions", id, "state"])
  {
    var parts := ["api", "sessions", id, "state"];
    ShortTemplatesMiss(rest, parts);
    LaterTemplatesMiss(rest, parts);
    SessionTemplatesRefusePost(id, rest);
    forall j | 0 <= j < 15 ensures !Full(Table[j], POST, rest, parts) {
      assert j < 7 || j == 7 || j == 8 || 9 <= j < 15;
    }
  }

  /** The search for a POST on `/api/sessions/{id}/state` passes the state
      handler (wrong method) and every other template (wrong path) and ends at
      the catch-all. */
  lemma StateByPostSearch(id: string, rest: string)
    requires id != ""
    ensures FirstMatch(Table, POST, rest, ["api", "sessions", id, "state"], false) == Routed(CatchAll, rest)
  {
    var parts := ["api", "sessions", id, "state"];
    NoRouteTakesStatePost(id, rest);
    assert Full(Table[15], POST, rest, parts);
    FirstMatchIsFirst(Table, POST, rest, parts, false);
  }

  /** A GET of `/api/sessions/{id}/state` reaches the state handler with the
      identifier as its parameter. */
  lemma SessionStateIsRouted(id: string, path: string)
    requires id != "" && '/' !in id
    requires path == "/api/sessions/" + id + "/state"
    ensures Dispatch(GET, path) == Routed(SessionState, id)
  {
    assert path == "/api/sessions/" + id + "/" + "state";
    SessionPathDispatch(GET, id, "state", path);
    StateSearch(id, path[1..]);
  }

  /** A POST to the same path matches no specific route and falls through to
      the catch-all. */
  lemma StateByPostReachesCatchAll(id: string, path: string)
    requires id != "" && '/' !in id && '\n' !in id
    requires path == "/api/sessions/" + id + "/state"
    ensures |path| > 0 && Dispatch(POST, path) == Routed(CatchAll, path[1..])
  {
    assert path == "/api/sessions/" + id + "/" + "state";
    SessionPathDispatch(POST, id, "state", path);
    StateByPostSearch(id, path[1..]);
  }
}

=== FILE: stream.dfy ===
/** `rewrite_response_session`: de-namespacing one chunk of an NDJSON stream. */
module Stream {
  import opened Wrappers
  import opened Text
  import opened Json
  import opened Tenancy
  import opened Payload

  /** One line of a chunk: blank lines and lines that are not JSON pass through
      verbatim; a JSON line is rewritten and serialised again. A truthy
      non-string identifier raises, which aborts the whole chunk. */
  function RewriteLine(codecs: Codecs, cfg: Config, tenant: string, line: string): (r: Result<string, Error>)
    ensures Blank(line) || codecs.loads(line).None? ==> r == Success(line)
    ensures !Blank(line) && codecs.loads(line).Some? ==>
              var data := codecs.loads(line).value;
              && (r.Success? <==> RewriteResponseData(cfg, tenant, data).Success?)
              && (r.Success? ==> r.value == codecs.dumps(RewriteResponseData(cfg, tenant, data).value))
  {
    if Strip(line) == "" then Success(line)
    else
      match codecs.loads(line)
      case None => Success(line)
      case Some(data) =>
        match RewriteResponseData(cfg, tenant, data)
        case Success(rewritten) => Success(codecs.dumps(rewritten))
        case Failure(e) => Failure(e)
  }

  /** The per-line loop. It succeeds when every line does, and then yields
      each line's rewriting in place of the line. */
  function RewriteLines(codecs: Codecs, cfg: Config, tenant: string, lines: seq<string>): (r: Result<seq<string>, Error>)
    ensures r.Success? <==> forall i :: 0 <= i < |lines| ==> RewriteLine(codecs, cfg, tenant, lines[i]).Success?
    ensures r.Success? ==> |r.value| == |lines|
    ensures r.Success? ==> forall i :: 0 <= i < |lines| ==> r.value[i] == RewriteLine(codecs, cfg, tenant, lines[i]).value
    decreases |lines|
  {
    if |lines| == 0 then Success([])
    else
      match RewriteLine(codecs, cfg, tenant, lines[0])
      case Failure(e) => Failure(e)
      case Success(first) =>
        match RewriteLines(codecs, cfg, tenant, lines[1..])
        case Failure(e) => Failure(e)
        case Success(rest) =>
          assert forall i :: 1 <= i < |lines| ==> lines[1..][i - 1] == lines[i];
          Success([first] + rest)
  }

  /** The chunk transform: decode, split on newlines, rewrite each line,
      join, encode. Any failure along the way (invalid UTF-8, a non-string
      identifier, an unencodable result) forwards the original chunk. */
  function RewriteResponseSession(codecs: Codecs, cfg: Config, tenant: string, chunk: Bytes): (out: Bytes)
    ensures codecs.decodeUtf8(chunk).None? ==> out == chunk
    ensures out == chunk
            || (&& codecs.decodeUtf8(chunk).Some?
                && var lines := RewriteLines(codecs, cfg, tenant, Split(codecs.decodeUtf8(chunk).value, '\n'));
                && lines.Success?
                && codecs.encodeUtf8(Join(lines.value, '\n')) == Some(out))
    ensures codecs.decodeUtf8(chunk).Some? ==>
              var lines := RewriteLines(codecs, cfg, tenant, Split(codecs.decodeUtf8(chunk).value, '\n'));
              && (lines.Failure? ==> out == chunk)
              && (lines.Success? && codecs.encodeUtf8(Join(lines.value, '\n')).None? ==> out == chunk)
              && (lines.Success? && codecs.encodeUtf8(Join(lines.value, '\n')).Some? ==>
                    out == codecs.encodeUtf8(Join(lines.value, '\n')).value)
  {
    match codecs.decodeUtf8(chunk)
    case None => chunk
    case Some(text) =>
      match RewriteLines(codecs, cfg, tenant, Split(text, '\n'))
      case Failure(_) => chunk
      case Success(lines) =>
        match codecs.encodeUtf8(Join(lines, '\n'))
        case None => chunk
        case Some(bytes) => bytes
  }

  /** With a serialiser that emits no raw newline, the rewritten text has
      exactly the lines of the decoded chunk: as many newlines, and line `i`
      is the rewriting of line `i`. */
  lemma {:induction false} RewritePreservesLines(codecs: Codecs, cfg: Config, tenant: string, text: string)
    requires Compact(codecs)
    requires RewriteLines(codecs, cfg, tenant, Split(text, '\n')).Success?
    ensures var lines := RewriteLines(codecs, cfg, tenant, Split(text, '\n')).value;
            && Split(Join(lines, '\n'), '\n') == lines
            && Count(Join(lines, '\n'), '\n') == Count(text, '\n')
  {
    var parts := Split(text, '\n');
    var lines := RewriteLines(codecs, cfg, tenant, parts).value;
    forall i | 0 <= i < |lines| ensures '\n' !in lines[i] {
      if !Blank(parts[i]) && codecs.loads(parts[i]).Some? {
        assert lines[i] == codecs.dumps(RewriteResponseData(cfg, tenant, codecs.loads(parts[i]).value).value);
      }
    }
    SplitJoin(lines, '\n');
  }

  /** A chunk with nothing to rewrite is forwarded byte for byte, provided
      the codecs round-trip its text. */
  lemma UntouchedChunkIsForwardedVerbatim(codecs: Codecs, cfg: Config, tenant: string, chunk: Bytes, text: string)
    requires codecs.decodeUtf8(chunk) == Some(text)
    requires codecs.encodeUtf8(text) == Some(chunk)
    requires forall line :: line in Split(text, '\n') ==> Blank(line) || codecs.loads(line).None?
    ensures RewriteResponseSession(codecs, cfg, tenant, chunk) == chunk
  {
    var parts := Split(text, '\n');
    assert forall i :: 0 <= i < |parts| ==> parts[i] in parts;
    NothingToRewrite(codecs, cfg, tenant, parts);
    JoinSplit(text, '\n');
  }

  /** Lines that are all blank or not JSON come through the loop unchanged. */
  lemma {:induction false} NothingToRewrite(codecs: Codecs, cfg: Config, tenant: string, lines: seq<string>)
    requires forall i :: 0 <= i < |lines| ==> Blank(lines[i]) || codecs.loads(lines[i]).None?
    ensures RewriteLines(codecs, cfg, tenant, lines) == Success(lines)
    decreases |lines|
  {
    if |lines| > 0 {
      assert RewriteLine(codecs, cfg, tenant, lines[0]) == Success(lines[0]);
      assert forall i :: 1 <= i < |lines| ==> lines[1..][i - 1] == lines[i];
      NothingToRewrite(codecs, cfg, tenant, lines[1..]);
      assert lines == [lines[0]] + lines[1..];
    }
  }

  /** A chunk holding one NDJSON record and its newline comes back as the
      serialisation of the rewritten record followed by the newline. */
  lemma SingleRecordChunk(codecs: Codecs, cfg: Config, tenant: string, chunk: Bytes, line: string, record: Value)
    requires codecs.decodeUtf8(chunk) == Some(line + "\n")
    requires '\n' !in line && !Blank(line)
    requires codecs.loads(line) == Some(record)
    requires RewriteResponseData(cfg, tenant, record).Success?
    ensures var rewritten := codecs.dumps(RewriteResponseData(cfg, tenant, record).value) + "\n";
            codecs.encodeUtf8(rewritten).Some? ==>
              RewriteResponseSession(codecs, cfg, tenant, chunk) == codecs.encodeUtf8(rewritten).value
  {
    var dumped := codecs.dumps(RewriteResponseData(cfg, tenant, record).value);
    SplitRecordLine(line);
    RecordLines(codecs, cfg, tenant, line, record);
    assert Join([dumped, ""], '\n') == dumped + "\n";
  }

  lemma SplitRecordLine(line: string)
    requires '\n' !in line
    ensures Split(line + "\n", '\n') == [line, ""]
  {
    assert Join([line, ""], '\n') == line + "\n";
    SplitJoin([line, ""], '\n');
  }

  lemma RecordLines(codecs: Codecs, cfg: Config, tenant: string, line: string, record: Value)
    requires !Blank(line)
    requires codecs.loads(line) == Some(record)
    requires RewriteResponseData(cfg, tenant, record).Success?
    ensures RewriteLines(codecs, cfg, tenant, [line, ""])
            == Success([codecs.dumps(RewriteResponseData(cfg, tenant, record).value), ""])
  {
    var dumped := codecs.dumps(RewriteResponseData(cfg, tenant, record).value);
    assert [line, ""][1..] == [""];
    NothingToRewrite(codecs, cfg, tenant, [""]);
    assert Strip(line) != "";
    assert RewriteLine(codecs, cfg, tenant, line) == Success(dumped);
    var lines := [line, ""];
    assert RewriteLine(codecs, cfg, tenant, lines[0]) == Success(dumped);
    assert RewriteLines(codecs, cfg, tenant, lines[1..]) == Success([""]);
    assert [dumped] + [""] == [dumped, ""];
  }

  /** Every chunk of the upstream stream is transformed on its own: one output
      chunk per input chunk, each the input itself or its rewriting. Chunk
      boundaries therefore never move, and a record split across two chunks is
      not rewritten. */
  function RewriteStream(codecs: Codecs, cfg: Config, tenant: string, chunks: seq<Bytes>, rewrite: bool): (out: seq<Bytes>)
    ensures |out| == |chunks|
    ensures !rewrite ==> out == chunks
    ensures forall i :: 0 <= i < |chunks| ==>
              (out[i] == chunks[i] || out[i] == RewriteResponseSession(codecs, cfg, tenant, chunks[i]))
    ensures rewrite ==> forall i :: 0 <= i < |chunks| ==> out[i] == RewriteResponseSession(codecs, cfg, tenant, chunks[i])
  {
    if rewrite then seq(|chunks|, i requires 0 <= i < |chunks| => RewriteResponseSession(codecs, cfg, tenant, chunks[i]))
    else chunks
  }
}

=== FILE: templates.dfy ===
/** Path templates: the segments a route is declared with, how a request
    path is matched against them, and the path a template renders to. */
module Templates {
  import opened Wrappers
  import opened Text

  /** A path segment of a route template: literal text, or a `{session_id}`
      parameter matching one non-empty segment. */
  datatype Segment = Lit(text: string) | Param

  /** A path segment fits a template segment: a literal must be equal, a
      parameter takes any non-empty segment. */
  predicate Fits(segment: Segment, part: string) {
    if segment.Lit? then part == segment.text else part != ""
  }

  /** Matches the segments of a path against a template. It matches exactly
      when the lengths agree and every segment fits, and then yields the
      segment the first parameter captured ("" for a template without one). */
  function MatchSegments(pattern: seq<Segment>, parts: seq<string>): (m: Option<string>)
    ensures m.Some? <==> |pattern| == |parts| && forall i :: 0 <= i < |pattern| ==> Fits(pattern[i], parts[i])
    ensures m.Some? && (forall i :: 0 <= i < |pattern| ==> pattern[i].Lit?) ==> m.value == ""
    ensures m.Some? ==> forall i :: (&& 0 <= i < |pattern| && pattern[i].Param?
                                     && forall j :: 0 <= j < i ==> pattern[j].Lit?) ==> m.value == parts[i]
    decreases |pattern|
  {
    assert forall i :: 1 <= i < |pattern| ==> pattern[1..][i - 1] == pattern[i];
    assert forall i :: 1 <= i < |parts| ==> parts[1..][i - 1] == parts[i];
    if |pattern| != |parts| then None
    else if |pattern| == 0 then Some("")
    else if pattern[0].Lit? && parts[0] != pattern[0].text then None
    else if pattern[0].Param? && parts[0] == "" then None
    else
      match MatchSegments(pattern[1..], parts[1..])
      case None => None
      case Some(captured) => if pattern[0].Param? then Some(parts[0]) else Some(captured)
  }

  /** The templates `/api/sessions/{session_id}/<lit>` against a path of the
      same shape: they match exactly when the last segments agree, capturing
      the identifier. */
  lemma SessionTemplate(id: string, lit: string, last: string)
    requires id != "" && '\n' !in last
    ensures MatchSegments([Lit("api"), Lit("sessions"), Param, Lit(lit)], ["api", "sessions", id, last])
            == if lit == last then Some(id) else None
  {
    var pattern := [Lit("api"), Lit("sessions"), Param, Lit(lit)];
    var parts := ["api", "sessions", id, last];
    assert pattern[1..] == [Lit("sessions"), Param, Lit(lit)] && parts[1..] == ["sessions", id, last];
    assert pattern[2..] == [Param, Lit(lit)] && parts[2..] == [id, last];
    assert pattern[3..] == [Lit(lit)] && parts[3..] == [last];
    assert pattern[1..][1..] == pattern[2..] && parts[1..][1..] == parts[2..];
    assert pattern[2..][1..] == pattern[3..] && parts[2..][1..] == parts[3..];
    assert MatchSegments(pattern[3..], parts[3..]) == if lit == last then Some("") else None;
    assert MatchSegments(pattern[2..], parts[2..]) == if lit == last then Some(id) else None;
  }

  /** The path a template stands for once its parameter is `sid`. */
  function Render(segments: seq<Segment>, sid: string): string {
    "/" + Join(Texts(segments, sid), '/')
  }

  function Texts(segments: seq<Segment>, sid: string): (texts: seq<string>)
    ensures |texts| == |segments|
    ensures forall i :: 0 <= i < |segments| ==> texts[i] == if segments[i].Lit? then segments[i].text else sid
  {
    seq(|segments|, i requires 0 <= i < |segments| => if segments[i].Lit? then segments[i].text else sid)
  }

  /** A template with at most one parameter. */
  predicate OneParamAtMost(segments: seq<Segment>) {
    forall i, j :: 0 <= i < |segments| && 0 <= j < |segments| && segments[i].Param? && segments[j].Param? ==> i == j
  }

  /** A path matched by a template is the template rendered with what the
      parameter captured. */
  lemma MatchRenders(segments: seq<Segment>, rest: string, captured: string)
    requires OneParamAtMost(segments)
    requires MatchSegments(segments, Split(rest, '/')) == Some(captured)
    ensures "/" + rest == Render(segments, captured)
  {
    var parts := Split(rest, '/');
    var texts := Texts(segments, captured);
    forall i | 0 <= i < |segments| ensures parts[i] == texts[i] {
      if segments[i].Param? {
        assert forall j :: 0 <= j < i ==> segments[j].Lit?;
      }
    }
    assert parts == texts;
    JoinSplit(rest, '/');
  }

  lemma RenderSingle(a: string, sid: string)
    ensures Render([Lit(a)], sid) == "/" + a
  {
    assert Texts([Lit(a)], sid) == [a];
  }

  lemma RenderPair(a: string, b: string, sid: string)
    ensures Render([Lit(a), Lit(b)], sid) == "/" + a + "/" + b
  {
    assert Texts([Lit(a), Lit(b)], sid) == [a] + [b];
    JoinCons(a, [b]);
  }

  lemma RenderTriple(a: string, b: string, c: string, sid: string)
    ensures Render([Lit(a), Lit(b), Lit(c)], sid) == "/" + a + "/" + b + "/" + c
  {
    assert Texts([Lit(a), Lit(b), Lit(c)], sid) == [a] + [b, c];
    JoinCons(a, [b, c]);
    JoinCons(b, [c]);
  }

  lemma RenderSession(last: string, sid: string)
    ensures Render([Lit("api"), Lit("sessions"), Param, Lit(last)], sid) == "/api/sessions/" + sid + "/" + last
  {
    assert Texts([Lit("api"), Lit("sessions"), Param, Lit(last)], sid) == ["api", "sessions", sid] + [last];
    SessionTemplatePath(sid, [last]);
  }

  lemma RenderSessionPair(a: string, b: string, sid: string)
    ensures Render([Lit("api"), Lit("sessions"), Param, Lit(a), Lit(b)], sid)
            == "/api/sessions/" + sid + "/" + (a + "/" + b)
  {
    assert Texts([Lit("api"), Lit("sessions"), Param, Lit(a), Lit(b)], sid)
           == ["api", "sessions", sid] + [a, b];
    SessionTemplatePath(sid, [a, b]);
    JoinCons(a, [b]);
  }

  lemma JoinCons(head: string, rest: seq<string>)
    requires |rest| >= 1
    ensures Join([head] + rest, '/') == head + "/" + Join(rest, '/')
  {
    assert ([head] + rest)[1..] == rest;
  }

  /** `/api/sessions/{sid}/<tail>` from its segments. */
  lemma SessionTemplatePath(sid: string, tail: seq<string>)
    requires |tail| >= 1
    ensures "/" + Join(["api", "sessions", sid] + tail, '/') == "/api/sessions/" + sid + "/" + Join(tail, '/')
  {
    JoinCons(sid, tail);
    SessionSegmentsJoin(sid, tail);
    SessionsPrefix(sid + "/" + Join(tail, '/'));
  }

  lemma SessionSegmentsJoin(sid: string, tail: seq<string>)
    requires |tail| >= 1
    ensures Join(["api", "sessions", sid] + tail, '/') == "api" + "/" + ("sessions" + "/" + Join([sid] + tail, '/'))
  {
    assert ["api", "sessions", sid] + tail == ["api", "sessions"] + ([sid] + tail);
    JoinCons2("api", "sessions", [sid] + tail);
  }

  lemma JoinCons2(a: string, b: string, rest: seq<string>)
    requires |rest| >= 1
    ensures Join([a, b] + rest, '/') == a + "/" + (b + "/" + Join(rest, '/'))
  {
    JoinCons(b, rest);
    assert [a, b] + rest == [a] + ([b] + rest);
    assert ([a] + ([b] + rest))[1..] == [b] + rest;
    JoinCons(a, [b] + rest);
  }

  lemma SessionsPrefix(rest: string)
    ensures "/" + ("api" + "/" + ("sessions" + "/" + rest)) == "/api/sessions/" + rest
  {
  }
}

=== FILE: tenancy.dfy ===
/** The wrapper's configuration and tenant resolution (`get_tenant`). */
module Tenancy {
  import opened Wrappers
  import opened Text

  /** Errors the wrapper answers with instead of forwarding. */
  datatype Error =
    | InvalidTenant(tenant: string)       // HTTPException 403
    | IdentifierNotString(field: string)  // `startswith` on a non-string: 500
    | MethodNotAllowed                    // routing: 405
    | NotFound                            // routing: 404

  function Status(e: Error): int {
    match e
    case InvalidTenant(_) => 403
    case IdentifierNotString(_) => 500
    case MethodNotAllowed => 405
    case NotFound => 404
  }

  /** Read-only configuration, loaded once. An empty `validTenants` means no
      whitelist. */
  datatype Config = Config(
    upstreamBase: string,
    defaultTenant: string,
    validTenants: set<string>,
    separator: string,
    tenantHeader: string)

  /** The tenant a request names: its header with surrounding whitespace
      removed, or the configured default when that leaves nothing. */
  function Requested(cfg: Config, header: Option<string>): string {
    var raw := header.GetOr("");
    if Blank(raw) then cfg.defaultTenant else Strip(raw)
  }

  /** `get_tenant`: trim, fall back to the default, then check the whitelist. */
  function ResolveTenant(cfg: Config, header: Option<string>): (r: Result<string, Error>)
    ensures r.Success? <==> cfg.validTenants == {} || Requested(cfg, header) in cfg.validTenants
    ensures r.Success? ==> r.value == Requested(cfg, header)
    ensures r.Success? ==> cfg.validTenants == {} || r.value in cfg.validTenants
    ensures r.Failure? ==> r.error == InvalidTenant(Requested(cfg, header)) && Status(r.error) == 403
  {
    var stripped := Strip(header.GetOr(""));
    var tenant := if stripped == "" then cfg.defaultTenant else stripped;
    if cfg.validTenants != {} && tenant !in cfg.validTenants then
      Failure(InvalidTenant(tenant))
    else
      Success(tenant)
  }

  /** A header with visible content resolves to that content, trimmed: no
      surrounding whitespace, and a slice of the header whose surroundings
      are whitespace only. */
  lemma ResolvedHeaderIsTrimmed(cfg: Config, header: string)
    requires !Blank(header)
    requires ResolveTenant(cfg, Some(header)).Success?
    ensures var t := ResolveTenant(cfg, Some(header)).value;
            t != "" && !IsSpace(t[0]) && !IsSpace(t[|t| - 1])
            && exists lo :: 0 <= lo <= |header| - |t| && t == header[lo..lo + |t|]
                            && Blank(header[..lo]) && Blank(header[lo + |t|..])
  {
  }

  /** A missing or whitespace-only header selects the default tenant, which
      passes when there is no whitelist or it is a member. */
  lemma MissingHeaderSelectsDefault(cfg: Config, header: Option<string>)
    requires header == None || Blank(header.value)
    ensures ResolveTenant(cfg, header)
            == if cfg.validTenants == {} || cfg.defaultTenant in cfg.validTenants
               then Success(cfg.defaultTenant)
               else Failure(InvalidTenant(cfg.defaultTenant))
  {
  }

  /** Resolution is idempotent: forwarding the resolved tenant as the header
      of a second resolution yields the same tenant, provided the default has
      no surrounding whitespace of its own. */
  lemma {:induction false} ResolveIsIdempotent(cfg: Config, header: Option<string>)
    requires Strip(cfg.defaultTenant) == cfg.defaultTenant
    requires ResolveTenant(cfg, header).Success?
    ensures ResolveTenant(cfg, Some(ResolveTenant(cfg, header).value)) == ResolveTenant(cfg, header)
  {
    var t := ResolveTenant(cfg, header).value;
    if Blank(t) {
      assert Strip(t) == [];
      assert t == cfg.defaultTenant;
    } else {
      StripOfStripped(header.GetOr(""));
    }
  }

  /** Stripping is idempotent. */
  lemma StripOfStripped(s: string)
    ensures Strip(Strip(s)) == Strip(s)
  {
    StripUntrimmed(Strip(s));
  }
}

=== FILE: text.dfy ===
/** String operations the wrapper borrows from Python's `str`. */
module Text {

  /** Python's `str.isspace()` for one character: the ASCII controls tab through
      carriage return, the file/group/record/unit separators, and the Unicode
      space characters. */
  predicate IsSpace(c: char) {
    || c == ' '
    || ('\t' <= c <= '\r')
    || ('\U{1C}' <= c <= '\U{1F}')
    || c == '\U{85}' || c == '\U{A0}' || c == '\U{1680}'
    || ('\U{2000}' <= c <= '\U{200A}')
    || c == '\U{2028}' || c == '\U{2029}' || c == '\U{202F}'
    || c == '\U{205F}' || c == '\U{3000}'
  }

  /** Whitespace only (the empty string included). */
  predicate Blank(s: string) {
    forall i :: 0 <= i < |s| ==> IsSpace(s[i])
  }

  /** Python's `str.startswith`. */
  predicate StartsWith(s: string, prefix: string) {
    |prefix| <= |s| && s[..|prefix|] == prefix
  }

  /** Index of the first non-whitespace character of `s` (or |s|). */
  function StripStart(s: string): (lo: nat)
    ensures lo <= |s|
    ensures forall i :: 0 <= i < lo ==> IsSpace(s[i])
    ensures lo == |s| || !IsSpace(s[lo])
  {
    StripStartFrom(s, 0)
  }

  function StripStartFrom(s: string, from: nat): (lo: nat)
    requires from <= |s|
    requires forall i :: 0 <= i < from ==> IsSpace(s[i])
    ensures from <= lo <= |s|
    ensures forall i :: 0 <= i < lo ==> IsSpace(s[i])
    ensures lo == |s| || !IsSpace(s[lo])
    decreases |s| - from
  {
    if from < |s| && IsSpace(s[from]) then StripStartFrom(s, from + 1) else from
  }

  /** One past the last non-whitespace character of `s[lo..]` (or `lo`). */
  function StripEnd(s: string, lo: nat, hi: nat): (end: nat)
    requires lo <= hi <= |s|
    requires forall i :: hi <= i < |s| ==> IsSpace(s[i])
    ensures lo <= end <= hi
    ensures forall i :: end <= i < |s| ==> IsSpace(s[i])
    ensures end == lo || !IsSpace(s[end - 1])
    decreases hi
  {
    if lo < hi && IsSpace(s[hi - 1]) then StripEnd(s, lo, hi - 1) else hi
  }

  /** Python's `str.strip()` with no argument: the slice of `s` left once the
      whitespace on both ends is removed. */
  function Strip(s: string): (r: string)
    ensures r == [] <==> Blank(s)
    ensures r == [] || (!IsSpace(r[0]) && !IsSpace(r[|r| - 1]))
    ensures exists lo :: 0 <= lo <= |s| - |r| && r == s[lo..lo + |r|]
                         && Blank(s[..lo]) && Blank(s[lo + |r|..])
  {
    var lo := StripStart(s);
    var hi := StripEnd(s, lo, |s|);
    assert Blank(s[..lo]) by {
      forall i | 0 <= i < lo ensures IsSpace(s[..lo][i]) {
        assert s[..lo][i] == s[i];
      }
    }
    assert Blank(s[hi..]) by {
      forall i | 0 <= i < |s| - hi ensures IsSpace(s[hi..][i]) {
        assert s[hi..][i] == s[hi + i];
      }
    }
    assert hi > lo ==> !Blank(s) by {
      if hi > lo { assert !IsSpace(s[lo]); }
    }
    s[lo..hi]
  }

  /** A string with no whitespace at either end is its own strip. */
  lemma StripUntrimmed(s: string)
    requires s == [] || (!IsSpace(s[0]) && !IsSpace(s[|s| - 1]))
    ensures Strip(s) == s
  {
    var r := Strip(s);
    if s != [] {
      assert !Blank(s);
      var lo :| 0 <= lo <= |s| - |r| && r == s[lo..lo + |r|]
                && Blank(s[..lo]) && Blank(s[lo + |r|..]);
    }
  }

  /** ASCII lower-casing. For the Latin-1 header names HTTP carries this agrees
      with Python's `str.lower()` on every comparison against an ASCII name. */
  function LowerChar(c: char): char {
    if 'A' <= c <= 'Z' then (c as int + 32) as char else c
  }

  function Lower(s: string): string {
    seq(|s|, i requires 0 <= i < |s| => LowerChar(s[i]))
  }

  /** Number of occurrences of `c` in `s`. */
  function Count(s: string, c: char): nat
    decreases |s|
  {
    if |s| == 0 then 0 else (if s[0] == c then 1 else 0) + Count(s[1..], c)
  }

  /** Python's `s.split(sep)` for a one-character separator: one more part than
      there are separators, none of the parts holding the separator. */
  function Split(s: string, sep: char): (parts: seq<string>)
    ensures |parts| == Count(s, sep) + 1
    ensures forall i :: 0 <= i < |parts| ==> sep !in parts[i]
    decreases |s|
  {
    if |s| == 0 then [""]
    else
      var rest := Split(s[1..], sep);
      if s[0] == sep then [""] + rest
      else
        assert forall i :: 1 <= i < |rest| ==> rest[1..][i - 1] == rest[i];
        [[s[0]] + rest[0]] + rest[1..]
  }

  /** Python's `sep.join(parts)`. */
  function Join(parts: seq<string>, sep: char): string
    decreases |parts|
  {
    if |parts| == 0 then ""
    else if |parts| == 1 then parts[0]
    else parts[0] + [sep] + Join(parts[1..], sep)
  }

  /** Joining the parts of a split gives back the original string. */
  lemma {:induction false} JoinSplit(s: string, sep: char)
    ensures Join(Split(s, sep), sep) == s
    decreases |s|
  {
    if |s| > 0 {
      var rest := Split(s[1..], sep);
      JoinSplit(s[1..], sep);
      if s[0] == sep {
        assert ([""] + rest)[1..] == rest;
      } else {
        var parts := [[s[0]] + rest[0]] + rest[1..];
        if |rest| > 1 {
          assert parts[1..] == rest[1..];
          assert Join(rest, sep) == rest[0] + [sep] + Join(rest[1..], sep);
        }
        assert s == [s[0]] + s[1..];
      }
    }
  }

  /** Splitting a string that starts with a separator-free part `p`. */
  lemma {:induction false} SplitPrefix(p: string, t: string, sep: char)
    requires sep !in p
    ensures Split(p + t, sep) == [p + Split(t, sep)[0]] + Split(t, sep)[1..]
    decreases |p|
  {
    var tail := Split(t, sep);
    if |p| > 0 {
      var s := p + t;
      assert s[0] == p[0] && s[1..] == p[1..] + t;
      SplitPrefix(p[1..], t, sep);
      var rest := Split(s[1..], sep);
      assert rest == [p[1..] + tail[0]] + tail[1..];
      assert Split(s, sep) == [[s[0]] + rest[0]] + rest[1..];
      assert [s[0]] + rest[0] == p + tail[0];
      assert rest[1..] == tail[1..];
    } else {
      assert p + t == t && p + tail[0] == tail[0];
      assert tail == [tail[0]] + tail[1..];
    }
  }

  /** Splitting the join of separator-free parts gives back the parts. */
  lemma {:induction false} SplitJoin(parts: seq<string>, sep: char)
    requires |parts| >= 1
    requires forall i :: 0 <= i < |parts| ==> sep !in parts[i]
    ensures Split(Join(parts, sep), sep) == parts
    decreases |parts|
  {
    if |parts| == 1 {
      SplitPrefix(parts[0], "", sep);
      assert parts[0] + "" == parts[0];
    } else {
      var j := Join(parts[1..], sep);
      SplitJoin(parts[1..], sep);
      assert Join(parts, sep) == parts[0] + ([sep] + j);
      SplitPrefix(parts[0], [sep] + j, sep);
      assert ([sep] + j)[1..] == j;
      var split := Split([sep] + j, sep);
      assert split == [""] + parts[1..];
      assert split[0] == "" && split[1..] == parts[1..];
      assert parts[0] + split[0] == parts[0];
      assert parts == [parts[0]] + parts[1..];
    }
  }
}

=== FILE: wrappers.dfy ===
/** Failure-compatible Option and Result types for the proxy's partial steps. */
module Wrappers {

  /** Python's Optional: a missing header, a body that does not decode. */
  datatype Option<+T> = None | Some(value: T) {

    /** The encapsulated value, or `default` when there is none. */
    function GetOr(default: T): T {
      match this
      case Some(v) => v
      case None => default
    }
  }

  /** Either a value or the error the wrapper answers with. */
  datatype Result<+R, +E> = Success(value: R) | Failure(error: E)
}
